=== FILE: README.md ===
# IntranetProxy core in Dafny

IntranetProxy exposes services on a private network through a public proxy
server. A proxy client inside the network keeps a control channel to the
server. When a user connects to one of the server's public ports, the
server asks the client (CONNECT on the control channel) to dial the backend
behind that port. The client binds a tunnel connection to the new backend
connection and confirms on the tunnel with `userId@clientKey`. From then on
TRANSFER frames carry the payload both ways, and DISCONNECT tears the
session down.

This project models the sequential logic of that core:

- The frame codecs. The Java encoder and decoder each have their own
  layout: the decoder expects an 8-byte serial number the encoder never
  writes. The Go client's encoder and decoder agree with each other for
  uris under 254 bytes; longer ones make the decoder panic (`JavaCodec`, `GoCodec`, `ProxyMessage`, `Bytes`).
- The Java client's reconnect backoff (`ProxyClient`).
- The Java client's tunnel pool and backend registry
  (`ClientChannelManager`).
- The client-side and server-side frame handlers, as pure transitions.
  Each takes a channel table and registries and returns the new state plus
  the effects it asks of the network, in program order (`Channels`,
  `ClientChannelHandler`, `ServerChannelHandler`, `ProxyChannelManager`).
- The Go client's message handler (`GoClient`).
- The server's port-mapping configuration (`ProxyConfig`).
- The handshake across both sides (`Session`).

Strings are byte sequences. Java `null` is `None`. An exception a handler
throws is a `Raise(fault)` effect after which the handler does nothing
more. Asynchronous outcomes (a dial succeeding or failing, which channel it
produced) are inputs.

## Model

Paths are relative to the repository root.

| member | source | states |
|---|---|---|
| ProxyMessage.TypeCodesDistinct | proxy-common/src/main/java/com/hklh8/common/protocol/ProxyMessage.java:13-33 | the five type codes are pairwise distinct values between 0x01 and 0x05 |
| ProxyMessage.New | proxy-common/src/main/java/com/hklh8/common/protocol/ProxyMessage.java:38-48 | a new record has its uri and data absent |
| ProxyMessage.SetType | proxy-common/src/main/java/com/hklh8/common/protocol/ProxyMessage.java:66-72 | the type getter returns what was set; uri and data are unchanged |
| ProxyMessage.SetUri | proxy-common/src/main/java/com/hklh8/common/protocol/ProxyMessage.java:50-56 | the uri getter returns what was set; type and data are unchanged |
| ProxyMessage.SetData | proxy-common/src/main/java/com/hklh8/common/protocol/ProxyMessage.java:58-64 | the data getter returns what was set; type and uri are unchanged |
| ProxyMessage.SettersIndependent | proxy-common/src/main/java/com/hklh8/common/protocol/ProxyMessage.java:50-72 | setters on different fields commute, a later setter overrides an earlier one, and a record is determined by the last value stored in each field |
| JavaCodec.Encode | proxy-common/src/main/java/com/hklh8/common/protocol/ProxyMessageEncoder.java:14-41 | output length is 4 + body length; bytes 0-3 are the body length as a Java int; byte 4 is the type; byte 5 is the uri length cut to a byte; then the uri bytes; then the data verbatim, with no serial number |
| JavaCodec.AbsentFieldsEncodeAsEmpty | proxy-common/src/main/java/com/hklh8/common/protocol/ProxyMessageEncoder.java:15-40 | a null uri and null data encode exactly like empty ones: the six bytes 0,0,0,2,type,0 |
| JavaCodec.UriLengthTruncated | proxy-common/src/main/java/com/hklh8/common/protocol/ProxyMessageEncoder.java:32 | a uri of 256 bytes or more is announced with a wrong length byte |
| JavaCodec.UriLength | proxy-common/src/main/java/com/hklh8/common/protocol/ProxyMessageDecoder.java:56 | read signed, the uri length is negative exactly when the byte is at least 0x80, and equals the byte otherwise |
| JavaCodec.DecodeWith | proxy-common/src/main/java/com/hklh8/common/protocol/ProxyMessageDecoder.java:40-63 | fewer than 4 bytes, or fewer than frameLength bytes after the length field, give no message; a decoded frame has the type byte, the big-endian serial and the uri length byte in order, and its uri and data are the following bytes, exactly filling the declared length (modulo 2^32, as Java int arithmetic wraps) |
| JavaCodec.NegativeSizes | proxy-common/src/main/java/com/hklh8/common/protocol/ProxyMessageDecoder.java:56-61 | with the declared frame present, a negative uri length, or a declared length shorter than 10 + uri length, ends in a negative array size |
| JavaCodec.RoundTripSigned | proxy-common/src/main/java/com/hklh8/common/protocol/ProxyMessageDecoder.java:49-63 | the decoder as written gives back type, uri, data and serial of any frame in its own layout whose uri is under 128 bytes |
| JavaCodec.LongUriRejected | proxy-common/src/main/java/com/hklh8/common/protocol/ProxyMessageDecoder.java:56-57 | the decoder as written rejects every well-formed frame whose uri is 128 to 255 bytes long |
| JavaCodec.EncodeDecodeMismatch | proxy-common/src/main/java/com/hklh8/common/protocol/ProxyMessageDecoder.java:49-63 | no output of the encoder decodes to the message it encoded, whatever serial is expected |
| JavaCodec.HeartbeatReplyUndecodable | proxy-common/src/main/java/com/hklh8/common/protocol/ProxyMessageDecoder.java:49-50 | the server's six-byte heartbeat reply ends in an out-of-bounds read when the decoder reads the serial |
| JavaCodec.EncodeWithSerial | proxy-common/src/main/java/com/hklh8/common/protocol/ProxyMessageDecoder.java:49-63 | the encoder the decoder expects: length 4 + 10 + uri + data |
| JavaCodec.RoundTripFixed | proxy-common/src/main/java/com/hklh8/common/protocol/ProxyMessageDecoder.java:33-69 | with the serial written and the uri length read unsigned, every message with a uri under 256 bytes comes back, absent fields as empty ones, with its serial |
| GoCodec.Encode | go/src/main/main.go:174-189 | nil encodes to nothing; otherwise a 4-byte big-endian body length 2 + uri + data (mod 2^32), the type, the uri length's low byte, the uri and the data |
| GoCodec.UriEnd | go/src/main/main.go:202-203 | with uint8 arithmetic, the end of the uri equals the true sum exactly when the uri length is below 254 |
| GoCodec.DecodeWith | go/src/main/main.go:191-205 | a buffer shorter than the announced frame consumes nothing; a decoded frame consumes exactly 4 + body length and splits uri from data at the uri length byte |
| GoCodec.DecodeWhole | go/src/main/main.go:191-204 | a buffer holding a whole frame whose uri fits its body decodes to the fields at their offsets |
| GoCodec.RoundTrip | go/src/main/main.go:174-205 | the decoder as written gives back any message whose uri is under 254 bytes and consumes exactly its encoding, whatever follows |
| GoCodec.LongUriPanics | go/src/main/main.go:201-203 | a uri of 254 or 255 bytes is encoded but the decoder as written panics on it |
| GoCodec.PrefixIncomplete | go/src/main/main.go:191-196 | every strict prefix of a frame that holds the length field consumes nothing |
| GoCodec.RoundTripFixed | go/src/main/main.go:174-205 | with the uri end computed without wrap-around, every message with a uri under 256 bytes round-trips |
| GoCodec.FixedAcceptsLongUri | go/src/main/main.go:201-203 | with the uri end computed without wrap-around, the 254- and 255-byte uris the decoder as written panics on decode to their message |
| GoClient.Unbind | go/src/main/main.go:229-234 | a bound handler loses both links and its peer is closed; other links stay; an unbound handler is left alone |
| GoClient.MessageReceived | go/src/main/main.go:207-239 | CONNECT starts a backend dial; TRANSFER writes the data to the bound peer or is dropped; DISCONNECT unbinds both ends and leaves every other link as it was, and its effects are exactly closing the peer (if bound) and then returning the connection to the pool on tunnel handlers (empty client key); other types do nothing |
| GoClient.ConnSuccess | go/src/main/main.go:241-248 | AUTH with the client key is sent exactly when the key is not empty |
| GoClient.ConnError | go/src/main/main.go:250-265 | the handler's link is cleared, a bound peer is unlinked and closed, and every other link is left as it was |
| GoClient.HeartbeatTick | go/src/main/main.go:273-280 | a tick closes the connection exactly when 60 s or more have passed since the last read, and otherwise sends a heartbeat frame |
| GoClient.HeartbeatLoop | go/src/main/main.go:267-286 | each tick is the close-or-heartbeat decision for its own time, every tick but the last sends a heartbeat, and the loop stops early only on a tick that closes the connection |
| GoClient.SilentConnectionClosed | go/src/main/main.go:267-286 | a connection that reads nothing gets exactly one heartbeat, on the first tick, and is closed on the second |
| GoClient.UnbindPreservesSymmetry | go/src/main/main.go:229-234 | unbinding keeps every link matched by the link back and free of self-links, and leaves nothing pointing at the broken pair |
| GoClient.MessageReceivedPreservesSymmetry | go/src/main/main.go:207-239 | every message keeps the links symmetric and free of self-links |
| ProxyClient.ReconnectWait | proxy-client/src/main/java/com/hklh8/client/ProxyClient.java:132-141 | a sleep above 60 s is first reset to 1 s; the result is twice the (reset) sleep |
| ProxyClient.OnEvent | proxy-client/src/main/java/com/hklh8/client/ProxyClient.java:102-130 | a successful connect makes the channel the control channel, sends AUTH with the client key and resets the sleep to 1 s; a failed connect or a lost control channel waits the new sleep and connects again |
| ProxyClient.OnEventKeepsBackoff | proxy-client/src/main/java/com/hklh8/client/ProxyClient.java:102-141 | the sleep stays 1000 * 2^k with 0 <= k <= 6, and every wait lies between 2 s and 64 s |
| ProxyClient.RunKeepsBackoff | proxy-client/src/main/java/com/hklh8/client/ProxyClient.java:97-141 | along any sequence of events the same invariant holds and no wait leaves [2 s, 64 s] |
| ProxyClient.FailuresWait | proxy-client/src/main/java/com/hklh8/client/ProxyClient.java:112-118 | n consecutive failures produce n wait-then-reconnect pairs with the waits of the schedule |
| ProxyClient.WaitsClosedForm | proxy-client/src/main/java/com/hklh8/client/ProxyClient.java:132-141 | from 1000 * 2^k the i-th wait is 1000 * 2^((k + i) mod 6 + 1) |
| ProxyClient.BackoffSchedule | proxy-client/src/main/java/com/hklh8/client/ProxyClient.java:132-141 | from 1 s the waits are 2, 4, 8, 16, 32, 64 s and then 2 s again, with period six |
| ProxyClient.ConnectResetsBackoff | proxy-client/src/main/java/com/hklh8/client/ProxyClient.java:110 | after a successful connect the next failure waits 2 s |
| ClientChannelManager.Borrow | proxy-client/src/main/java/com/hklh8/client/ClientChannelManager.java:40-58 | a non-empty pool hands out its head without dialling; an empty pool dials, delivering the new channel or failing, and is unchanged |
| ClientChannelManager.Return | proxy-client/src/main/java/com/hklh8/client/ClientChannelManager.java:60-69 | a pool of more than 100 closes the channel and is unchanged; otherwise the channel is unbound, reads again and joins the tail |
| ClientChannelManager.RemoveFirst | proxy-client/src/main/java/com/hklh8/client/ClientChannelManager.java:71-73 | exactly the first occurrence is removed and the rest keep their order; an absent channel changes nothing |
| ClientChannelManager.Remove | proxy-client/src/main/java/com/hklh8/client/ClientChannelManager.java:71-73 | only the pool changes, losing the channel's first occurrence and keeping the order of the rest; nothing is closed; a duplicate-free pool no longer holds the channel |
| ClientChannelManager.GetBackend | proxy-client/src/main/java/com/hklh8/client/ClientChannelManager.java:91-93 | the backend registered under the user id, or none |
| ClientChannelManager.AddBackend | proxy-client/src/main/java/com/hklh8/client/ClientChannelManager.java:95-97 | the user id becomes a key; pool, channels and control channel are unchanged |
| ClientChannelManager.RemoveBackend | proxy-client/src/main/java/com/hklh8/client/ClientChannelManager.java:99-101 | the user id is no longer a key and the removed entry is returned |
| ClientChannelManager.BackendsAreAMap | proxy-client/src/main/java/com/hklh8/client/ClientChannelManager.java:91-101 | after add, get finds the channel and remove returns it; after remove, get finds nothing; other users are untouched |
| ClientChannelManager.IsRealServerReadable | proxy-client/src/main/java/com/hklh8/client/ClientChannelManager.java:103-105 | true exactly when both flags are set and true; an unset flag that is reached throws a null pointer exception |
| ClientChannelManager.ActiveBackends | proxy-client/src/main/java/com/hklh8/client/ClientChannelManager.java:110-116 | exactly the registered backends that are active |
| ClientChannelManager.ClearBackends | proxy-client/src/main/java/com/hklh8/client/ClientChannelManager.java:107-118 | every active backend is flushed and closed and the map is left empty |
| ClientChannelManager.ReturnThenBorrow | proxy-client/src/main/java/com/hklh8/client/ClientChannelManager.java:40-69 | the pool is first in, first out |
| ClientChannelManager.ReturnToEmptyThenBorrow | proxy-client/src/main/java/com/hklh8/client/ClientChannelManager.java:40-69 | a channel returned to an empty pool is borrowed back unbound and reading, without dialling |
| ClientChannelManager.ReturnAllPool | proxy-client/src/main/java/com/hklh8/client/ClientChannelManager.java:60-69 | of channels returned in turn, the pool takes them in order until it holds 101 |
| ClientChannelManager.ReturnAllCloses | proxy-client/src/main/java/com/hklh8/client/ClientChannelManager.java:60-62 | every channel returned after that is closed, in order |
| ClientChannelManager.BorrowKeepsInv | proxy-client/src/main/java/com/hklh8/client/ClientChannelManager.java:40-58 | borrowing keeps the pool free of duplicates, at most 101 long and unbound, and the channel handed out is no longer pooled |
| ClientChannelManager.ReturnKeepsInv | proxy-client/src/main/java/com/hklh8/client/ClientChannelManager.java:60-69 | returning an unpooled channel keeps that invariant |
| ClientChannelManager.RemoveFirstKeepsNoDup | proxy-client/src/main/java/com/hklh8/client/ClientChannelManager.java:71-73 | removal from a duplicate-free pool leaves it duplicate-free and without the channel |
| ClientChannelManager.RemoveKeepsInv | proxy-client/src/main/java/com/hklh8/client/ClientChannelManager.java:71-73 | removal keeps the pool invariant |
| ClientChannelHandler.JavaText | proxy-client/src/main/java/com/hklh8/client/handlers/ClientChannelHandler.java:95 | string concatenation writes a null string as "null" |
| ClientChannelHandler.ConnectUri | proxy-client/src/main/java/com/hklh8/client/handlers/ClientChannelHandler.java:95 | the confirmation uri is the user id, '@', then the client key |
| ClientChannelHandler.Transfer | proxy-client/src/main/java/com/hklh8/client/handlers/ClientChannelHandler.java:50-58 | the payload goes verbatim to the bound backend; an unbound tunnel drops it; null data throws |
| ClientChannelHandler.Disconnect | proxy-client/src/main/java/com/hklh8/client/handlers/ClientChannelHandler.java:60-68 | a bound tunnel is unbound and returned to the pool (or closed when the pool is full) and its backend is flushed and closed; an unbound tunnel is a no-op |
| ClientChannelHandler.ParseTarget | proxy-client/src/main/java/com/hklh8/client/handlers/ClientChannelHandler.java:73-75 | the target splits on ':'; null data, fewer than two tokens, or a non-numeric port throw; otherwise host is token 0 and port is token 1 parsed |
| ClientChannelHandler.Bind | proxy-client/src/main/java/com/hklh8/client/handlers/ClientChannelHandler.java:87-101 | tunnel and backend point at each other, CONNECT(userId@key) goes out on the tunnel, the backend reads again and is registered under the user id |
| ClientChannelHandler.DialSucceeded | proxy-client/src/main/java/com/hklh8/client/handlers/ClientChannelHandler.java:78-110 | the backend stops reading; a failed borrow sends DISCONNECT(userId) on the control channel and leaves the backend open and not reading; otherwise a pooled (or new) tunnel and the backend are bound both ways, exactly the confirmation is sent, the backend reads again and is registered under the user id, and no other channel or user entry changes |
| ClientChannelHandler.Connect | proxy-client/src/main/java/com/hklh8/client/handlers/ClientChannelHandler.java:70-119 | a malformed target throws before any dial or send; otherwise the target is dialled first; a failed dial sends DISCONNECT(userId) on the control channel and changes nothing; a successful dial goes on as the listener's success branch |
| ClientChannelHandler.WritabilityChanged | proxy-client/src/main/java/com/hklh8/client/handlers/ClientChannelHandler.java:121-128 | the bound peer reads exactly while this channel is writable; nothing else changes |
| ClientChannelHandler.Inactive | proxy-client/src/main/java/com/hklh8/client/handlers/ClientChannelHandler.java:130-147 | losing the control channel forgets it, flushes and closes the active backends, empties the map and notifies the supervisor; losing a tunnel closes its active backend; either way the channel leaves the pool |
| ClientChannelHandler.ChannelRead | proxy-client/src/main/java/com/hklh8/client/handlers/ClientChannelHandler.java:33-48 | frame types other than CONNECT, DISCONNECT and TRANSFER change nothing |
| ClientChannelHandler.ConnectDialsTarget | proxy-client/src/main/java/com/hklh8/client/handlers/ClientChannelHandler.java:73-76 | "host:port" with a port in range parses to exactly that host and port |
| ClientChannelHandler.ConnectWithoutPortThrows | proxy-client/src/main/java/com/hklh8/client/handlers/ClientChannelHandler.java:73-75 | a target without a port, or ending in ':', throws and nothing is dialled or sent |
| ClientChannelHandler.ChannelReadKeepsInv | proxy-client/src/main/java/com/hklh8/client/handlers/ClientChannelHandler.java:33-48 | every frame keeps the pool invariant, given the dialled channels are new |
| ClientChannelHandler.DisconnectKeepsInv | proxy-client/src/main/java/com/hklh8/client/handlers/ClientChannelHandler.java:60-68 | DISCONNECT keeps the pool invariant |
| ClientChannelHandler.ConnectKeepsInv | proxy-client/src/main/java/com/hklh8/client/handlers/ClientChannelHandler.java:70-119 | CONNECT keeps the pool invariant |
| ClientChannelHandler.DisconnectTearsDown | proxy-client/src/main/java/com/hklh8/client/handlers/ClientChannelHandler.java:60-68 | the backend is flushed and closed; the tunnel is pooled unbound, or closed when the pool is full |
| ClientChannelHandler.EventsKeepInv | proxy-client/src/main/java/com/hklh8/client/handlers/ClientChannelHandler.java:121-147 | writability changes and inactivity keep the pool invariant |
| Channels.RelayWritability | proxy-client/src/main/java/com/hklh8/client/handlers/ClientChannelHandler.java:121-128 | the bound peer's autoRead becomes this channel's writability; nothing else changes |
| Channels.Backpressure | proxy-server/src/main/java/com/hklh8/server/handlers/ServerChannelHandler.java:142-150 | once both ends of a binding have relayed, each end reads exactly while the other is writable |
| ProxyChannelManager.AddCmdChannel | proxy-server/src/main/java/com/hklh8/server/handlers/ServerChannelHandler.java:139 | the channel becomes the control channel of the key and of each port, with no users |
| ProxyChannelManager.GetCmdChannel | proxy-server/src/main/java/com/hklh8/server/handlers/ServerChannelHandler.java:131 | the control channel of a key; a null key finds nothing |
| ProxyChannelManager.GetUserChannel | proxy-server/src/main/java/com/hklh8/server/handlers/ServerChannelHandler.java:104 | the user channel registered under a control channel and user id; a null id finds nothing |
| ProxyChannelManager.RemoveUserChannel | proxy-server/src/main/java/com/hklh8/server/handlers/ServerChannelHandler.java:58 | returns what a lookup would find and removes only that entry |
| ProxyChannelManager.RemoveCmdChannel | proxy-server/src/main/java/com/hklh8/server/handlers/ServerChannelHandler.java:169 | every key and port served by the channel is released and its user channels are handed back |
| ProxyChannelManager.AddThenGet | proxy-server/src/main/java/com/hklh8/server/handlers/ServerChannelHandler.java:131-139 | a registered channel is found under its key and serves its ports; other keys are unaffected |
| ProxyChannelManager.RemoveUserThenGet | proxy-server/src/main/java/com/hklh8/server/handlers/ServerChannelHandler.java:58-61 | removal returns the registered user and a later lookup finds nothing |
| ProxyChannelManager.RemoveCmdChannelForgets | proxy-server/src/main/java/com/hklh8/server/handlers/ServerChannelHandler.java:169 | after removal neither the key nor any port points at the channel |
| ServerChannelHandler.Heartbeat | proxy-server/src/main/java/com/hklh8/server/handlers/ServerChannelHandler.java:115-120 | a bare HEARTBEAT frame is sent back and nothing changes |
| ServerChannelHandler.Auth | proxy-server/src/main/java/com/hklh8/server/handlers/ServerChannelHandler.java:122-140 | a key without ports, or with a control channel already, closes the connection and registers nothing; otherwise the channel becomes the key's control channel for its ports |
| ServerChannelHandler.Connect | proxy-server/src/main/java/com/hklh8/server/handlers/ServerChannelHandler.java:82-113 | a null uri, a uri not splitting into two tokens on '@', or an unknown key closes the tunnel; an unknown user changes nothing; a pending user is bound both ways, tagged on the tunnel and reads again |
| ServerChannelHandler.Untag | proxy-server/src/main/java/com/hklh8/server/handlers/ServerChannelHandler.java:76-78 | the tunnel loses NEXT_CHANNEL, CLIENT_KEY and USER_ID; other channels are unchanged |
| ServerChannelHandler.Disconnect | proxy-server/src/main/java/com/hklh8/server/handlers/ServerChannelHandler.java:52-80 | on a control channel the user named by the uri is removed and flushed and closed; on a tunnel the bound user is removed, flushed and closed and the tunnel loses its attributes |
| ServerChannelHandler.Transfer | proxy-server/src/main/java/com/hklh8/server/handlers/ServerChannelHandler.java:43-50 | the payload goes verbatim to the bound user; unbound drops it; null data throws |
| ServerChannelHandler.WritabilityChanged | proxy-server/src/main/java/com/hklh8/server/handlers/ServerChannelHandler.java:142-150 | the bound peer reads exactly while this channel is writable; nothing else changes |
| ServerChannelHandler.Inactive | proxy-server/src/main/java/com/hklh8/server/handlers/ServerChannelHandler.java:152-173 | a tunnel bound to an active user deregisters and flushes and closes it; any other channel is released as a control channel and its users are closed |
| ServerChannelHandler.ChannelRead | proxy-server/src/main/java/com/hklh8/server/handlers/ServerChannelHandler.java:19-41 | unknown frame types change nothing |
| ServerChannelHandler.SecondAuthRejected | proxy-server/src/main/java/com/hklh8/server/handlers/ServerChannelHandler.java:131-136 | a second AUTH for a registered key is closed and the first registration stays |
| ServerChannelHandler.ChannelReadKeepsTagged | proxy-server/src/main/java/com/hklh8/server/handlers/ServerChannelHandler.java:19-41 | every frame and event keeps CLIENT_KEY and USER_ID set together, and only on bound channels |
| ServerChannelHandler.InactiveReleasesControl | proxy-server/src/main/java/com/hklh8/server/handlers/ServerChannelHandler.java:168-170 | losing a control channel releases its key and ports and closes exactly its users |
| ServerChannelHandler.DisconnectTearsDown | proxy-server/src/main/java/com/hklh8/server/handlers/ServerChannelHandler.java:66-79 | DISCONNECT on a bound tunnel deregisters, flushes and closes the user and strips the tunnel |
| ProxyConfig.AddMappings | proxy-server/src/main/java/com/hklh8/server/config/ProxyConfig.java:110-118 | a refusal names a port of the client's mappings that is already taken or repeated earlier in the list |
| ProxyConfig.Build | proxy-server/src/main/java/com/hklh8/server/config/ProxyConfig.java:102-119 | a successful build keeps every entry it started from |
| ProxyConfig.Update | proxy-server/src/main/java/com/hklh8/server/config/ProxyConfig.java:92-124 | on an exception the previous configuration stays; on success the client list is the parsed one; a null list gives the empty configuration |
| ProxyConfig.AddMappingsOk | proxy-server/src/main/java/com/hklh8/server/config/ProxyConfig.java:110-118 | one client's mappings are accepted exactly when their ports are distinct and new, and then each port maps to its lan |
| ProxyConfig.BuildOk | proxy-server/src/main/java/com/hklh8/server/config/ProxyConfig.java:102-119 | the loop succeeds exactly when every mapping list is present, the keys are distinct and new, and all ports are distinct and new |
| ProxyConfig.BuildPorts | proxy-server/src/main/java/com/hklh8/server/config/ProxyConfig.java:107-112 | the key table holds exactly the old and the listed keys, each listed key with its ports in mapping order |
| ProxyConfig.BuildLans | proxy-server/src/main/java/com/hklh8/server/config/ProxyConfig.java:110-117 | the port table holds exactly the old and the listed ports, each listed port with its mapping's lan |
| ProxyConfig.PortsOwnedOnce | proxy-server/src/main/java/com/hklh8/server/config/ProxyConfig.java:113-115 | in an accepted list no port belongs to two clients |
| ProxyConfig.UpdateAccepts | proxy-server/src/main/java/com/hklh8/server/config/ProxyConfig.java:98-124 | an update succeeds exactly when the parsed list is valid |
| ProxyConfig.UpdateLookups | proxy-server/src/main/java/com/hklh8/server/config/ProxyConfig.java:174-195 | after a valid update the key set is the clients' keys, each key's ports are its mappings' ports in order, unknown keys find null, and each port's lan is its mapping's |
| ProxyConfig.UpdateOwners | proxy-server/src/main/java/com/hklh8/server/config/ProxyConfig.java:113-117 | after a valid update every configured port is listed for exactly one client, and the two tables agree |
| ProxyConfig.TablesConsistent | proxy-server/src/main/java/com/hklh8/server/config/ProxyConfig.java:98-119 | the tables built from a valid list are consistent with each other |
| ProxyConfig.ClientInetPorts | proxy-server/src/main/java/com/hklh8/server/config/ProxyConfig.java:174-176 | the key's ports, or null for an unknown or null key |
| ProxyConfig.ClientKeySet | proxy-server/src/main/java/com/hklh8/server/config/ProxyConfig.java:183-185 | exactly the keys for which the ports lookup finds something (after an update, the clients' keys, by ProxyConfig.UpdateLookups) |
| ProxyConfig.LanInfo | proxy-server/src/main/java/com/hklh8/server/config/ProxyConfig.java:193-195 | the lan behind a port, or null |
| ProxyConfig.UserPorts | proxy-server/src/main/java/com/hklh8/server/config/ProxyConfig.java:202-210 | every configured port exactly once |
| Session.HandshakeBinds | proxy-server/src/main/java/com/hklh8/server/handlers/ServerChannelHandler.java:90-112 | the client's confirmation, read by the server, binds the tunnel to the pending user when neither part holds '@' and the key is not empty |
| Session.ClientConfirms | proxy-client/src/main/java/com/hklh8/client/handlers/ClientChannelHandler.java:70-101 | a well-formed CONNECT with a backend and a tunnel emits the dial and exactly that confirmation |
| Session.MalformedConfirmationCloses | proxy-server/src/main/java/com/hklh8/server/handlers/ServerChannelHandler.java:90-95 | a user id containing '@' (one ending in '@' included), or an empty client key, makes the server close the tunnel |
| Session.ConfirmationSurvivesCorrectedCodec | proxy-common/src/main/java/com/hklh8/common/protocol/ProxyMessageDecoder.java:49-63 | with the corrected codec the confirmation reaches the server with its type and uri |
| Bytes.Int32 | proxy-common/src/main/java/com/hklh8/common/protocol/ProxyMessageDecoder.java:44 | four bytes read as a signed int: negative exactly when the top bit is set, the unsigned value otherwise |
| Bytes.Int32Bytes | proxy-common/src/main/java/com/hklh8/common/protocol/ProxyMessageEncoder.java:27 | four bytes that read back as the value whenever it is a non-negative int |
| Bytes.Uint64Bytes | proxy-common/src/main/java/com/hklh8/common/protocol/ProxyMessageDecoder.java:50 | eight bytes that read back as the value |
| Bytes.Wrap32 | proxy-common/src/main/java/com/hklh8/common/protocol/ProxyMessageDecoder.java:61 | int arithmetic: the result is in the int range, congruent to the true value mod 2^32, and equal to it when it fits |
| Bytes.SignedByte | proxy-common/src/main/java/com/hklh8/common/protocol/ProxyMessageDecoder.java:56 | a byte read signed: negative exactly from 0x80 up, congruent mod 256 |
| Bytes.LowByte | proxy-common/src/main/java/com/hklh8/common/protocol/ProxyMessageEncoder.java:32 | the cast keeps lengths under 256 |
| Bytes.JavaSplit | proxy-server/src/main/java/com/hklh8/server/handlers/ServerChannelHandler.java:90 | no token contains the delimiter; no delimiter gives the whole string; trailing empty tokens are dropped |
| Bytes.JoinPieces | proxy-server/src/main/java/com/hklh8/server/handlers/ServerChannelHandler.java:90 | the pieces, joined with the delimiter, give back the input |
| Bytes.SplitComposite | proxy-server/src/main/java/com/hklh8/server/handlers/ServerChannelHandler.java:90-91 | "u@k" with delimiter-free parts and a non-empty k splits into exactly u and k |
| Bytes.SplitThree | proxy-server/src/main/java/com/hklh8/server/handlers/ServerChannelHandler.java:90-91 | "a@b@k" splits into three tokens |
| Bytes.SplitTrailingDelimiter | proxy-server/src/main/java/com/hklh8/server/handlers/ServerChannelHandler.java:90-91 | "u@" splits into one token, and "@" into none |
| Bytes.ParseInt | proxy-client/src/main/java/com/hklh8/client/handlers/ClientChannelHandler.java:75 | a number is parsed exactly when an optional sign is followed by digits whose value fits an int, and then it is that signed value |
| Bytes.ParseShowNat | proxy-client/src/main/java/com/hklh8/client/handlers/ClientChannelHandler.java:75 | a port written in decimal parses back to itself |

## Left out

- TLS setup, the admin HTTP API, Spring wiring and the Netty bootstraps are not modelled.
- Reading and writing the configuration file, JSON parsing and change listeners are left out. `ProxyConfig.Update` takes the parsed client list as input.
- The length-field framing stage in front of the Java decoder is left out: its buffering and its maximum frame length are in a library. The decoder takes one frame, length field included.
- `ProxyChannelManager`, the server's registry, is modelled abstractly, as the three maps its call sites in `ServerChannelHandler` need. Two of its behaviours are assumed rather than taken from its code: a null key or user id finds nothing, and `removeCmdChannel` closes the released user channels.
- `ProxyChannelManager.AddUserChannel` belongs to the user-side handler, which is not modelled. It exists so lemmas can register a pending user.
- `UserChannelHandler`, `RealServerChannelHandler`, `IdleCheckHandler` and the Go `ConnHandler` pool are left out. Their effects appear only as effect values (closing, returning to the pool, dialling).
- Concurrency, `volatile`, hash-map iteration order and real time are not modelled. Handlers run one at a time. Effects over a hash map's entries are a single effect carrying a set. Time is an integer input to `GoClient.HeartbeatTick`, and the reconnect wait is a `Wait` effect.
- The body of the Go CONNECT goroutine (`net.Dial` and the backend handler) is left out. It appears as a `DialBackend` effect. The Go CLI and TLS dial are left out too.
- Charset conversion is left out. Uris, keys and targets are byte sequences, so a Java uri's length is its byte length.
- `ClientChannelHandler.Connect`: the CONNECT target's port range check is the JDK `InetSocketAddress` constructor's, not the handler's. Dialling a host that does not resolve is a failed dial, like any other.
- `GoClient.ConnError`: stopping the heartbeat goroutine and the three-second pause are not modelled.
- `ServerChannelHandler.Connect`: an unknown user id leaves the tunnel open and unbound, because the code has no branch that closes it.
- `ClientChannelManager.IsRealServerReadable`: no visible code sets the two flags, so on every channel the handlers create the call throws.
- The pool size check is `> 100`, so the pool reaches 101 channels (`ClientChannelManager.ReturnAllPool`).
- `ProxyMessage.java` declares no serial number, although the decoder stores one. `JavaCodec.DecodedFrame` keeps the serial next to the message.
- GoCodec.DecodeWith: a buffer is a sequence with no spare capacity, so fewer than 4 bytes panic at `buf[0:LEN_SIZE]`. A Go slice with spare capacity would read stale bytes there and, unless the uint32 sum wraps, give `(nil, 0)`. The caller that owns the buffer (`ConnHandler`) is not part of this model.
- ProxyConfig.ClientInetPorts: configured client keys are never null. In the code a client whose JSON entry lacks `clientKey` is stored under the null key, and `getClientInetPorts(null)`, as an AUTH without a uri asks, then finds its ports. The model's "nothing for a null key" holds only because such a client cannot be written.
- ProxyConfig.Update: client keys and mapping ports in the parsed list are never null. A null key or a null port in the JSON is not modelled.

## Findings

| source | as written | input that shows it | evidently intended | confidence | as-written member | corrected member |
|---|---|---|---|---|---|---|
| proxy-common/src/main/java/com/hklh8/common/protocol/ProxyMessageDecoder.java:49-50 | the decoder reads an 8-byte serial number after the type, which the encoder never writes | the server's heartbeat reply, bytes 0,0,0,2,1,0: the serial read runs past the frame | the encoder writes the serial the decoder reads | not executed | JavaCodec.EncodeDecodeMismatch | JavaCodec.RoundTripSigned |
| proxy-common/src/main/java/com/hklh8/common/protocol/ProxyMessageDecoder.java:56-57 | the uri length byte is read as a signed Java byte | any frame whose uri is 128 bytes long: length byte 0x80 reads as -128 and allocating the uri array throws | the length is read unsigned, as the encoder writes it | not executed | JavaCodec.LongUriRejected | JavaCodec.RoundTripFixed |
| go/src/main/main.go:201-203 | `TYPE_SIZE+URI_LENGTH_SIZE+uriLen` is computed in uint8 and wraps | a message whose uri is 254 bytes: the end of the uri wraps to 0, before its start, and slicing panics | the sum is computed without wrap-around | not executed | GoCodec.LongUriPanics | GoCodec.FixedAcceptsLongUri |

=== FILE: bytes.dfy ===
/** Octets, fixed-width big-endian integers, Java's two's-complement views
    of them, and the two string helpers the handlers rely on: Java's
    `String.split` on a one-character delimiter and `Integer.parseInt`. */
module Bytes {
  import opened Wrappers

  /** One octet as carried on the wire, read unsigned. */
  type byte = b: int | 0 <= b < 256

  /** Strings of the source (uris, client keys, "host:port" targets) are
      modelled by their encoded bytes. */
  type Text = seq<byte>

  const TWO_8: int := 0x100
  const TWO_31: int := 0x8000_0000
  const TWO_32: int := 0x1_0000_0000
  const TWO_64: int := 0x1_0000_0000_0000_0000

  const COLON: byte := 0x3A
  const AT: byte := 0x40

  // ---------------------------------------------------------------------
  // Fixed-width integers

  /** The unsigned value of four big-endian bytes. */
  function Uint32(bs: seq<byte>): (n: nat)
    requires |bs| == 4
    ensures n < TWO_32
  {
    ((bs[0] as int * 0x100 + bs[1]) * 0x100 + bs[2]) * 0x100 + bs[3]
  }

  /** The four big-endian bytes of an unsigned 32-bit value. */
  function Uint32Bytes(n: nat): (bs: seq<byte>)
    requires n < TWO_32
    ensures |bs| == 4
    ensures Uint32(bs) == n
  {
    var n1 := n / 0x100;
    var n2 := n1 / 0x100;
    var n3 := n2 / 0x100;
    assert n1 < 0x100_0000 && n2 < 0x1_0000 && n3 < 0x100;
    [n3, n2 % 0x100, n1 % 0x100, n % 0x100]
  }

  /** The encoding of a value is unique: four bytes are the encoding of
      the value they denote. */
  lemma Uint32Injective(bs: seq<byte>)
    requires |bs| == 4
    ensures Uint32Bytes(Uint32(bs)) == bs
  {
    var n := Uint32(bs);
    var n1 := (bs[0] as int * 0x100 + bs[1]) * 0x100 + bs[2];
    var n2 := bs[0] as int * 0x100 + bs[1];
    assert n / 0x100 == n1 && n % 0x100 == bs[3];
    assert n1 / 0x100 == n2 && n1 % 0x100 == bs[2];
    assert n2 / 0x100 == bs[0] && n2 % 0x100 == bs[1];
  }

  /** The unsigned value of eight big-endian bytes. */
  function Uint64(bs: seq<byte>): (n: nat)
    requires |bs| == 8
    ensures n < TWO_64
  {
    Uint32(bs[..4]) * TWO_32 + Uint32(bs[4..])
  }

  /** The eight big-endian bytes of an unsigned 64-bit value. */
  function Uint64Bytes(n: nat): (bs: seq<byte>)
    requires n < TWO_64
    ensures |bs| == 8
    ensures Uint64(bs) == n
  {
    var hi := Uint32Bytes(n / TWO_32);
    var lo := Uint32Bytes(n % TWO_32);
    assert (hi + lo)[..4] == hi && (hi + lo)[4..] == lo;
    hi + lo
  }

  /** Java `int` arithmetic: the value wrapped into [-2^31, 2^31). */
  function Wrap32(x: int): (r: int)
    ensures -TWO_31 <= r < TWO_31
    ensures (r - x) % TWO_32 == 0 && (x - r) % TWO_32 == 0
    ensures -TWO_31 <= x < TWO_31 ==> r == x
  {
    (x + TWO_31) % TWO_32 - TWO_31
  }

  /** Java's `readInt`: four big-endian bytes as a signed 32-bit value. */
  function Int32(bs: seq<byte>): (r: int)
    requires |bs| == 4
    ensures -TWO_31 <= r < TWO_31
    ensures r >= 0 <==> bs[0] < 0x80
    ensures r >= 0 ==> r == Uint32(bs)
  {
    Wrap32(Uint32(bs))
  }

  /** Java's `writeInt`: the low 32 bits of a (possibly negative) value. */
  function Int32Bytes(x: int): (bs: seq<byte>)
    ensures |bs| == 4
    ensures 0 <= x < TWO_31 ==> Int32(bs) == x
  {
    Uint32Bytes(x % TWO_32)
  }

  /** A Java `byte` read back as a (signed) number. */
  function SignedByte(b: byte): (r: int)
    ensures -0x80 <= r < 0x80
    ensures r < 0 <==> b >= 0x80
    ensures (r - b) % TWO_8 == 0
  {
    if b >= 0x80 then b - TWO_8 else b
  }

  /** `(byte) n` followed by `writeByte`, and Go's `byte(n)`: the low eight
      bits of a length. */
  function LowByte(n: nat): (b: byte)
    ensures n < TWO_8 ==> b == n
  {
    n % TWO_8
  }

  /** A slice of a slice is a slice of the whole. */
  lemma SliceOfSlice(s: seq<byte>, i: nat, j: nat, a: nat, b: nat)
    requires i <= j <= |s| && a <= b <= j - i
    ensures s[i..j][a..b] == s[i + a..i + b]
    ensures s[i..j][a..] == s[i + a..j]
  {
    assert |s[i..j][a..b]| == |s[i + a..i + b]|;
    forall k | 0 <= k < b - a ensures s[i..j][a..b][k] == s[i + a..i + b][k] {
      assert s[i..j][a..b][k] == s[i..j][a + k] == s[i + a + k];
    }
  }

  /** A slice of a suffix is a slice of the whole. */
  lemma SliceOfSuffix(s: seq<byte>, i: nat, a: nat, b: nat)
    requires i <= |s| && a <= b <= |s| - i
    ensures s[i..][a..b] == s[i + a..i + b]
  {
    SliceOfSlice(s, i, |s|, a, b);
    assert s[i..] == s[i..|s|];
  }

  // ---------------------------------------------------------------------
  // String.split on a single-character delimiter

  /** The pieces of `s` between occurrences of `d`, empty ones included. */
  function Pieces(s: seq<byte>, d: byte): (ps: seq<seq<byte>>)
    ensures |ps| >= 1
    ensures forall i :: 0 <= i < |ps| ==> d !in ps[i]
    decreases |s|
  {
    if d !in s then [s]
    else
      var i := IndexOf(s, d);
      [s[..i]] + Pieces(s[i + 1..], d)
  }

  /** The position of the first `d` in `s`. */
  function IndexOf(s: seq<byte>, d: byte): (i: nat)
    requires d in s
    ensures i < |s| && s[i] == d && d !in s[..i]
  {
    if s[0] == d then 0 else 1 + IndexOf(s[1..], d)
  }

  /** Gluing the pieces back with the delimiter restores the input. */
  function Join(ps: seq<seq<byte>>, d: byte): seq<byte>
    requires |ps| >= 1
  {
    if |ps| == 1 then ps[0] else ps[0] + [d] + Join(ps[1..], d)
  }

  lemma {:induction false} JoinPieces(s: seq<byte>, d: byte)
    ensures Join(Pieces(s, d), d) == s
    decreases |s|
  {
    if d in s {
      var i := IndexOf(s, d);
      var ps := Pieces(s[i + 1..], d);
      assert Pieces(s, d) == [s[..i]] + ps;
      JoinPieces(s[i + 1..], d);
      assert Join(Pieces(s, d), d) == s[..i] + [d] + Join(ps, d);
      assert s == s[..i] + [d] + s[i + 1..];
    }
  }

  /** Java's `split` with limit 0 removes trailing empty strings. */
  function DropTrailingEmpty(ts: seq<seq<byte>>): (r: seq<seq<byte>>)
    ensures |r| <= |ts| && r == ts[..|r|]
    ensures |r| > 0 ==> r[|r| - 1] != []
    ensures forall i :: |r| <= i < |ts| ==> ts[i] == []
  {
    if |ts| == 0 then ts
    else if ts[|ts| - 1] == [] then DropTrailingEmpty(ts[..|ts| - 1])
    else ts
  }

  /** `s.split(d)` for a one-character delimiter `d` that is not a regular
      expression metacharacter: no occurrence gives `[s]` (even for the
      empty string); otherwise the pieces with trailing empty ones removed. */
  function JavaSplit(s: seq<byte>, d: byte): (ts: seq<seq<byte>>)
    ensures forall i :: 0 <= i < |ts| ==> d !in ts[i]
    ensures d !in s ==> ts == [s]
    ensures d in s && |ts| > 0 ==> ts[|ts| - 1] != []
  {
    if d !in s then [s] else DropTrailingEmpty(Pieces(s, d))
  }

  /** Splitting a composite `u + d + k` gives back exactly its two parts
      when neither contains the delimiter and the second is not empty. */
  lemma {:induction false} SplitComposite(u: seq<byte>, k: seq<byte>, d: byte)
    requires d !in u && d !in k && k != []
    ensures JavaSplit(u + [d] + k, d) == [u, k]
  {
    var s := u + [d] + k;
    assert s[|u|] == d;
    var i := IndexOf(s, d);
    assert i == |u|;
    assert s[..i] == u;
    assert s[i + 1..] == k;
    assert Pieces(s, d) == [u, k];
  }

  /** The first piece of `a + d + rest` is `a` when `a` has no `d`. */
  lemma {:induction false} PiecesLead(a: seq<byte>, rest: seq<byte>, d: byte)
    requires d !in a
    ensures Pieces(a + [d] + rest, d) == [a] + Pieces(rest, d)
  {
    var s := a + [d] + rest;
    assert s[|a|] == d;
    var i := IndexOf(s, d);
    assert s[..|a|] == a;
    assert i == |a|;
    assert s[..i] == a;
    assert s[i + 1..] == rest;
  }

  /** A composite of three delimiter-free parts, the last non-empty,
      splits into exactly those three. */
  lemma {:induction false} SplitThree(a: seq<byte>, b: seq<byte>, k: seq<byte>, d: byte)
    requires d !in a && d !in b && d !in k && k != []
    ensures JavaSplit(a + [d] + b + [d] + k, d) == [a, b, k]
  {
    var rest := b + [d] + k;
    assert a + [d] + b + [d] + k == a + [d] + rest;
    PiecesLead(a, rest, d);
    PiecesLead(b, k, d);
    assert Pieces(k, d) == [k];
  }

  /** Splitting at a trailing delimiter drops the empty last piece, so a
      composite with an empty second part yields a single token. */
  lemma {:induction false} SplitTrailingDelimiter(u: seq<byte>, d: byte)
    requires d !in u
    ensures JavaSplit(u + [d], d) == if u == [] then [] else [u]
  {
    var s := u + [d];
    assert s[|u|] == d;
    var i := IndexOf(s, d);
    assert i == |u|;
    assert s[..i] == u;
    assert s[i + 1..] == [];
    assert Pieces(s, d) == [u, []];
    var ts: seq<seq<byte>> := [u, []];
    assert ts[..1] == [u];
    assert DropTrailingEmpty(ts) == DropTrailingEmpty([u]);
    if u == [] {
      var one: seq<seq<byte>> := [u];
      assert one[..0] == [];
      assert DropTrailingEmpty(one) == DropTrailingEmpty([]);
    }
  }

  // ---------------------------------------------------------------------
  // Integer.parseInt, radix 10

  const ZERO: byte := 0x30
  const NINE: byte := 0x39
  const PLUS: byte := 0x2B
  const MINUS: byte := 0x2D

  predicate IsDigit(b: byte) {
    ZERO <= b <= NINE
  }

  predicate AllDigits(ds: seq<byte>) {
    forall i :: 0 <= i < |ds| ==> IsDigit(ds[i])
  }

  /** The decimal value of a run of ASCII digits, most significant first. */
  function DigitsValue(ds: seq<byte>): (n: nat)
    requires AllDigits(ds)
  {
    if |ds| == 0 then 0 else DigitsValue(ds[..|ds| - 1]) * 10 + (ds[|ds| - 1] - ZERO)
  }

  /** `Integer.parseInt(s)`: an optional sign followed by at least one digit,
      whose value fits a Java `int`; anything else throws
      `NumberFormatException`, modelled as `None`. */
  function ParseInt(s: seq<byte>): (r: Option<int>)
    ensures r.Some? ==> -TWO_31 <= r.value < TWO_31
    ensures r.Some? <==>
      (var ds := if |s| > 0 && (s[0] == PLUS || s[0] == MINUS) then s[1..] else s;
       |ds| > 0 && AllDigits(ds) &&
       (if s[0] == MINUS then DigitsValue(ds) <= TWO_31 else DigitsValue(ds) < TWO_31))
    ensures r.Some? ==>
      (var ds := if s[0] == PLUS || s[0] == MINUS then s[1..] else s;
       AllDigits(ds) && r.value == (if s[0] == MINUS then 0 - DigitsValue(ds) as int else DigitsValue(ds)))
  {
    if |s| == 0 then None
    else
      var negative := s[0] == MINUS;
      var ds := if s[0] == PLUS || negative then s[1..] else s;
      if |ds| == 0 || !AllDigits(ds) then None
      else
        var v: int := DigitsValue(ds);
        if negative then (if v <= TWO_31 then Some(-v) else None)
        else (if v < TWO_31 then Some(v) else None)
  }

  /** The decimal digits of a natural number, as `Integer.toString` writes them. */
  function ShowNat(n: nat): (ds: seq<byte>)
    ensures |ds| > 0 && AllDigits(ds)
  {
    if n < 10 then [ZERO + n] else ShowNat(n / 10) + [ZERO + n % 10]
  }

  lemma {:induction false} DigitsOfShowNat(n: nat)
    ensures DigitsValue(ShowNat(n)) == n
  {
    if n >= 10 {
      DigitsOfShowNat(n / 10);
      var ds := ShowNat(n);
      assert ds[..|ds| - 1] == ShowNat(n / 10);
    }
  }

  /** A port written in decimal parses back to itself. */
  lemma ParseShowNat(n: nat)
    requires n < TWO_31
    ensures ParseInt(ShowNat(n)) == Some(n)
  {
    DigitsOfShowNat(n);
  }
}

=== FILE: channels.dfy ===
/** Netty channels as the Java handlers see them: an id, the attributes
    the handlers attach to it (`NEXT_CHANNEL`, `CLIENT_KEY`, `USER_ID`,
    the two writeability flags), the `AUTO_READ` option and the two
    states the handlers query (`isWritable`, `isActive`). Handlers are pure
    transitions from a channel table to a new table plus the effects they
    ask of the network, in program order. */
module Channels {
  import opened Wrappers
  import opened Bytes
  import opened ProxyMessage

  type ChanId = nat

  /** The per-channel state the handlers read and write. */
  datatype Chan = Chan(
    next: Option<ChanId>,          // NEXT_CHANNEL: the peer of a bound session
    clientKey: Option<Text>,       // CLIENT_KEY (server tunnels)
    userId: Option<Text>,          // USER_ID (server tunnels, client backends)
    autoRead: bool,                // ChannelOption.AUTO_READ
    writable: bool,                // isWritable()
    active: bool,                  // isActive()
    clientWritable: Option<bool>,  // CLIENT_CHANNEL_WRITEABLE
    userWritable: Option<bool>)    // USER_CHANNEL_WRITEABLE

  /** A channel no handler has touched: no attributes, reading, writable, open. */
  const Fresh: Chan := Chan(None, None, None, true, true, true, None, None)

  /** Every channel's state; channels not in the map are `Fresh`. */
  type Table = map<ChanId, Chan>

  function At(t: Table, c: ChanId): (ch: Chan)
    ensures c !in t ==> ch == Fresh
  {
    if c in t then t[c] else Fresh
  }

  /** Replacing the state of one channel. */
  function Put(t: Table, c: ChanId, ch: Chan): (r: Table)
    ensures At(r, c) == ch
    ensures forall d :: d != c ==> At(r, d) == At(t, d)
  {
    t[c := ch]
  }

  /** `attr(NEXT_CHANNEL).set(n)`, or `.remove()` when `n` is `None`. */
  function SetNext(t: Table, c: ChanId, n: Option<ChanId>): (r: Table)
    ensures At(r, c) == At(t, c).(next := n)
    ensures forall d :: d != c ==> At(r, d) == At(t, d)
  {
    Put(t, c, At(t, c).(next := n))
  }

  /** `config().setOption(AUTO_READ, b)`. */
  function SetAutoRead(t: Table, c: ChanId, b: bool): (r: Table)
    ensures At(r, c) == At(t, c).(autoRead := b)
    ensures forall d :: d != c ==> At(r, d) == At(t, d)
  {
    Put(t, c, At(t, c).(autoRead := b))
  }

  /** Runtime exceptions the handlers can throw on malformed input. */
  datatype Fault = NullPointer | IndexOutOfBounds | NumberFormat | IllegalArgument

  datatype Effect =
    | Send(on: ChanId, msg: Message)        // writeAndFlush of a frame
    | Write(on: ChanId, data: seq<byte>)    // writeAndFlush of raw payload
    | FlushClose(on: ChanId)                // empty write, then close when flushed
    | FlushCloseEach(chans: set<ChanId>)    // FlushClose of each, in map order
    | Close(on: ChanId)
    | CloseEach(chans: set<ChanId>)         // Close of each, in map order
    | Dial(host: Text, port: int)           // bootstrap.connect
    | Raise(fault: Fault)                   // the handler stops here
    | NotifyInactive                        // ChannelStatusListener.channelInactive
    | Wait(ms: int)                         // wait(ms) in the reconnect loop
    | Reconnect                             // connectProxyServer again

  /** `channelWritabilityChanged`, the same on both sides: the bound peer
      reads only while this channel can accept writes. */
  function RelayWritability(t: Table, c: ChanId): (r: Table)
    ensures At(t, c).next.None? ==> r == t
    ensures At(t, c).next.Some? ==>
      var p := At(t, c).next.value;
      && At(r, p) == At(t, p).(autoRead := At(t, c).writable)
      && forall d :: d != p ==> At(r, d) == At(t, d)
  {
    match At(t, c).next
    case None => t
    case Some(p) => SetAutoRead(t, p, At(t, c).writable)
  }

  /** Backpressure: after a writability change on either end of a
      symmetric binding, each end reads only while the other is writable,
      provided the other end's own notification has been processed too. */
  lemma {:induction false} Backpressure(t: Table, a: ChanId, b: ChanId)
    requires a != b
    requires At(t, a).next == Some(b) && At(t, b).next == Some(a)
    ensures var r := RelayWritability(RelayWritability(t, a), b);
      && At(r, b).autoRead == At(t, a).writable
      && At(r, a).autoRead == At(t, b).writable
      && At(r, a).next == Some(b) && At(r, b).next == Some(a)
  {
    var r1 := RelayWritability(t, a);
    assert At(r1, b).next == Some(a);
    assert At(r1, b).writable == At(t, b).writable;
  }
}

=== FILE: client_channel_handler.dfy ===
/** The proxy client's handler for frames arriving from the proxy server,
    on the control channel and on tunnel channels alike. Each handler maps
    the client state to a new state and the effects it performs, in order.
    The two asynchronous outcomes of a CONNECT (the backend dial and, when
    the pool is empty, the tunnel dial) are inputs. */
module ClientChannelHandler {
  import opened Wrappers
  import opened Bytes
  import opened ProxyMessage
  import opened Channels
  import opened ClientChannelManager

  datatype Out = Out(st: ClientState, effects: seq<Effect>)

  /** Java's `"" + s` for a string that may be null. */
  const NULL_TEXT: Text := [0x6E, 0x75, 0x6C, 0x6C]

  function JavaText(s: Option<Text>): (t: Text)
    ensures s.Some? ==> t == s.value
    ensures s.None? ==> t == NULL_TEXT
  {
    s.GetOr(NULL_TEXT)
  }

  /** The uri of the CONNECT a client sends on a freshly bound tunnel. */
  function ConnectUri(userId: Option<Text>, clientKey: Option<Text>): (u: Text)
    ensures var n := |JavaText(userId)|;
      && |u| == n + 1 + |JavaText(clientKey)|
      && u[..n] == JavaText(userId) && u[n] == AT && u[n + 1..] == JavaText(clientKey)
  {
    JavaText(userId) + [AT] + JavaText(clientKey)
  }

  /** The largest TCP port; `InetSocketAddress` rejects any other port with
      an `IllegalArgumentException` before a connection is attempted. */
  const MAX_PORT: int := 0xFFFF

  // ---------------------------------------------------------------------
  // Handlers

  /** `handleTransferMessage`: forward the payload to the bound backend. */
  function Transfer(st: ClientState, c: ChanId, msg: Message): (o: Out)
    ensures o.st == st
    ensures At(st.chans, c).next.None? ==> o.effects == []
    ensures At(st.chans, c).next.Some? ==>
      o.effects == [if msg.data.Some? then Write(At(st.chans, c).next.value, msg.data.value) else Raise(NullPointer)]
  {
    match At(st.chans, c).next
    case None => Out(st, [])
    case Some(b) =>
      if msg.data.None? then Out(st, [Raise(NullPointer)])  // getData().length
      else Out(st, [Write(b, msg.data.value)])
  }

  /** `handleDisconnectMessage`: unbind the tunnel, give it back to the
      pool and flush-and-close its backend. */
  function Disconnect(st: ClientState, c: ChanId): (o: Out)
    ensures At(st.chans, c).next.None? ==> o == Out(st, [])
    ensures At(st.chans, c).next.Some? ==>
      var b := At(st.chans, c).next.value;
      && o.st.backends == st.backends && o.st.cmd == st.cmd
      && (forall d :: d != c ==> At(o.st.chans, d) == At(st.chans, d))
      && (|st.pool| <= MAX_POOL_SIZE ==>
            && o.effects == [FlushClose(b)]
            && o.st.pool == st.pool + [c]
            && At(o.st.chans, c) == At(st.chans, c).(next := None, autoRead := true))
      && (|st.pool| > MAX_POOL_SIZE ==>
            && o.effects == [Close(c), FlushClose(b)]
            && o.st.pool == st.pool
            && At(o.st.chans, c) == At(st.chans, c).(next := None))
  {
    match At(st.chans, c).next
    case None => Out(st, [])
    case Some(b) =>
      var (st1, e) := Return(st.(chans := SetNext(st.chans, c, None)), c);
      Out(st1, e + [FlushClose(b)])
  }

  /** Tell the server the session could not be opened. */
  function Refuse(cmdCh: ChanId, userId: Option<Text>): Effect {
    Send(cmdCh, Control(DISCONNECT, userId))
  }

  /** The "host:port" payload of a CONNECT, parsed as the handler does:
      `split(":")`, token 0 as host and token 1 through `parseInt`. */
  function ParseTarget(data: Option<seq<byte>>): (r: Result<(Text, int), Fault>)
    ensures data.None? ==> r == Err(NullPointer)
    ensures data.Some? && |JavaSplit(data.value, COLON)| < 2 ==> r == Err(IndexOutOfBounds)
    ensures r.Ok? ==>
      && data.Some? && |JavaSplit(data.value, COLON)| >= 2
      && r.value.0 == JavaSplit(data.value, COLON)[0]
      && ParseInt(JavaSplit(data.value, COLON)[1]) == Some(r.value.1)
    ensures r == Err(NumberFormat) <==>
      data.Some? && |JavaSplit(data.value, COLON)| >= 2 && ParseInt(JavaSplit(data.value, COLON)[1]).None?
  {
    if data.None? then Err(NullPointer)             // new String(null)
    else
      var tokens := JavaSplit(data.value, COLON);
      if |tokens| < 2 then Err(IndexOutOfBounds)     // serverInfo[0] or serverInfo[1]
      else match ParseInt(tokens[1])
        case None => Err(NumberFormat)
        case Some(port) => Ok((tokens[0], port))
  }

  /** The success listener of the tunnel borrow: bind tunnel `t` and
      backend `b` both ways, confirm on the tunnel, let the backend read and
      register it under the user id. A null user id makes the registration
      throw after everything else has happened. */
  function Bind(st: ClientState, t: ChanId, b: ChanId, userId: Option<Text>, clientKey: Option<Text>): (o: Out)
    requires t != b
    ensures At(o.st.chans, t).next == Some(b) && At(o.st.chans, b).next == Some(t)
    ensures At(o.st.chans, b).autoRead
    ensures o.st.pool == st.pool && o.st.cmd == st.cmd
    ensures forall d :: d != t && d != b ==> At(o.st.chans, d) == At(st.chans, d)
    ensures userId.Some? ==>
      && o.effects == [Send(t, Control(CONNECT, Some(ConnectUri(userId, clientKey))))]
      && o.st.backends == st.backends[userId.value := b]
      && At(o.st.chans, b).userId == userId
    ensures userId.None? ==>
      && o.effects == [Send(t, Control(CONNECT, Some(ConnectUri(userId, clientKey)))), Raise(NullPointer)]
      && o.st.backends == st.backends
  {
    var chans := SetNext(SetNext(st.chans, t, Some(b)), b, Some(t));
    var confirm := Send(t, Control(CONNECT, Some(ConnectUri(userId, clientKey))));
    var chans' := SetAutoRead(chans, b, true);
    match userId
    case None => Out(st.(chans := chans'), [confirm, Raise(NullPointer)])
    case Some(u) =>
      var chans'' := Put(chans', b, At(chans', b).(userId := userId));
      Out(AddBackend(st.(chans := chans''), u, b), [confirm])
  }

  /** The dial listener's success branch for backend `b`: turn its reading
      off, borrow a tunnel and bind, or answer DISCONNECT(userId) on the
      control channel when no tunnel can be had. */
  function DialSucceeded(st: ClientState, cmdCh: ChanId, userId: Option<Text>, clientKey: Option<Text>,
                         b: ChanId, tunnelDial: Option<ChanId>): (o: Out)
    requires tunnelDial.Some? ==> b != tunnelDial.value
    requires b !in st.pool
    ensures o.st.cmd == st.cmd
    // a failed borrow leaves the backend open with reading off
    ensures |st.pool| == 0 && tunnelDial.None? ==>
      && o.effects == [Refuse(cmdCh, userId)]
      && o.st.pool == st.pool && o.st.backends == st.backends
      && At(o.st.chans, b) == At(st.chans, b).(autoRead := false)
      && (forall d :: d != b ==> At(o.st.chans, d) == At(st.chans, d))
    // otherwise the tunnel and the backend are bound both ways and confirmed
    ensures |st.pool| > 0 || tunnelDial.Some? ==>
      var t := if |st.pool| > 0 then st.pool[0] else tunnelDial.value;
      && At(o.st.chans, t).next == Some(b) && At(o.st.chans, b).next == Some(t)
      && At(o.st.chans, b).autoRead
      && o.effects == [Send(t, Control(CONNECT, Some(ConnectUri(userId, clientKey))))]
                      + (if userId.None? then [Raise(NullPointer)] else [])
      && o.st.pool == (if |st.pool| > 0 then st.pool[1..] else st.pool)
      && (forall d :: d != t && d != b ==> At(o.st.chans, d) == At(st.chans, d))
      // the backend is registered under the user id; no other entry changes
      && o.st.backends == (if userId.Some? then st.backends[userId.value := b] else st.backends)
  {
    var st1 := st.(chans := SetAutoRead(st.chans, b, false));
    var (st2, borrowed) := Borrow(st1, tunnelDial);
    if borrowed.BorrowFailed? then Out(st2, [Refuse(cmdCh, userId)])
    else
      assert borrowed.chan != b;
      var o := Bind(st2, borrowed.chan, b, userId, clientKey);
      assert forall d :: d != borrowed.chan && d != b ==> At(o.st.chans, d) == At(st.chans, d);
      o
  }

  /** The CONNECT target parses to a host and a port in the TCP range, so
      the handler goes on to dial it. */
  predicate Dialable(data: Option<Text>) {
    ParseTarget(data).Ok? && 0 <= ParseTarget(data).value.1 <= MAX_PORT
  }

  /** `handleConnectMessage` on control channel `cmdCh`: parse the target,
      dial it (`backend` is the dialled channel, or `None` on failure), then
      go on as `DialSucceeded`; a failed dial is reported with a DISCONNECT
      on the control channel. */
  function Connect(st: ClientState, cmdCh: ChanId, msg: Message, clientKey: Option<Text>,
                   backend: Option<ChanId>, tunnelDial: Option<ChanId>): (o: Out)
    requires backend.Some? && tunnelDial.Some? ==> backend.value != tunnelDial.value
    requires backend.Some? ==> backend.value !in st.pool
    // a malformed target throws before anything is dialled or sent
    ensures ParseTarget(msg.data).Err? ==> o == Out(st, [Raise(ParseTarget(msg.data).error)])
    // a port outside the TCP range is refused before dialling
    ensures ParseTarget(msg.data).Ok? && !Dialable(msg.data) ==> o == Out(st, [Raise(IllegalArgument)])
    // otherwise the target is dialled first
    ensures Dialable(msg.data) ==>
      && |o.effects| >= 2
      && o.effects[0] == Dial(ParseTarget(msg.data).value.0, ParseTarget(msg.data).value.1)
    // a failed dial answers DISCONNECT(userId) and changes nothing
    ensures Dialable(msg.data) && backend.None? ==> o.st == st && o.effects == o.effects[..1] + [Refuse(cmdCh, msg.uri)]
    // a successful dial goes on as the listener does
    ensures Dialable(msg.data) && backend.Some? ==>
      var d := DialSucceeded(st, cmdCh, msg.uri, clientKey, backend.value, tunnelDial);
      o.st == d.st && o.effects == o.effects[..1] + d.effects
  {
    match ParseTarget(msg.data)
    case Err(f) => Out(st, [Raise(f)])
    case Ok((host, port)) =>
      if !(0 <= port <= MAX_PORT) then Out(st, [Raise(IllegalArgument)])
      else
        var dial := [Dial(host, port)];
        match backend
        case None => Out(st, dial + [Refuse(cmdCh, msg.uri)])
        case Some(b) =>
          var o := DialSucceeded(st, cmdCh, msg.uri, clientKey, b, tunnelDial);
          Out(o.st, dial + o.effects)
  }

  /** `channelWritabilityChanged`. */
  function WritabilityChanged(st: ClientState, c: ChanId): (o: Out)
    ensures o.effects == [] && o.st == st.(chans := o.st.chans)
    ensures At(st.chans, c).next.None? ==> o.st == st
    ensures At(st.chans, c).next.Some? ==>
      var p := At(st.chans, c).next.value;
      && At(o.st.chans, p).autoRead == At(st.chans, c).writable
      && At(o.st.chans, p).next == At(st.chans, p).next
      && forall d :: d != p ==> At(o.st.chans, d) == At(st.chans, d)
  {
    Out(st.(chans := RelayWritability(st.chans, c)), [])
  }

  /** `channelInactive`: losing the control channel forgets it, tears down
      every backend and notifies the reconnect supervisor; losing a tunnel
      closes its active backend. Either way the channel leaves the pool. */
  function Inactive(st: ClientState, c: ChanId): (o: Out)
    ensures o.st.pool == RemoveFirst(st.pool, c) && o.st.chans == st.chans
    ensures st.cmd == Some(c) ==>
      && o.st.cmd.None? && o.st.backends == map[]
      && o.effects == [FlushCloseEach(ActiveBackends(st)), NotifyInactive]
    ensures st.cmd != Some(c) ==>
      && o.st.cmd == st.cmd && o.st.backends == st.backends
      && o.effects == (if At(st.chans, c).next.Some? && At(st.chans, At(st.chans, c).next.value).active
                       then [Close(At(st.chans, c).next.value)] else [])
  {
    if st.cmd == Some(c) then
      var (st1, e) := ClearBackends(st.(cmd := None));
      Out(Remove(st1, c), e + [NotifyInactive])
    else
      var e := match At(st.chans, c).next
        case Some(b) => if At(st.chans, b).active then [Close(b)] else []
        case None => [];
      Out(Remove(st, c), e)
  }

  /** `channelRead0`: dispatch on the frame type; other types are ignored. */
  function ChannelRead(st: ClientState, c: ChanId, msg: Message, clientKey: Option<Text>,
                       backend: Option<ChanId>, tunnelDial: Option<ChanId>): (o: Out)
    requires backend.Some? && tunnelDial.Some? ==> backend.value != tunnelDial.value
    requires backend.Some? ==> backend.value !in st.pool
    ensures msg.msgType !in {CONNECT, DISCONNECT, TRANSFER} ==> o == Out(st, [])
  {
    if msg.msgType == CONNECT then Connect(st, c, msg, clientKey, backend, tunnelDial)
    else if msg.msgType == DISCONNECT then Disconnect(st, c)
    else if msg.msgType == TRANSFER then Transfer(st, c, msg)
    else Out(st, [])
  }

  // ---------------------------------------------------------------------
  // Properties

  /** A well-formed target "host:port" is dialled as written. */
  lemma ConnectDialsTarget(host: Text, port: nat)
    requires COLON !in host
    requires port <= MAX_PORT
    ensures ParseTarget(Some(host + [COLON] + ShowNat(port))) == Ok((host, port))
  {
    var digits := ShowNat(port);
    assert COLON !in digits by {
      forall i | 0 <= i < |digits| ensures digits[i] != COLON {
        assert IsDigit(digits[i]);
      }
    }
    SplitComposite(host, digits, COLON);
    ParseShowNat(port);
  }

  /** A control-side CONNECT with a target that has no port never dials and
      sends nothing, whatever the dial outcomes. */
  lemma ConnectWithoutPortThrows(st: ClientState, cmdCh: ChanId, userId: Option<Text>, host: Text,
                                 clientKey: Option<Text>, backend: Option<ChanId>, tunnelDial: Option<ChanId>)
    requires COLON !in host
    requires backend.Some? && tunnelDial.Some? ==> backend.value != tunnelDial.value
    requires backend.Some? ==> backend.value !in st.pool
    ensures Connect(st, cmdCh, Message(CONNECT, userId, Some(host)), clientKey, backend, tunnelDial)
              == Out(st, [Raise(IndexOutOfBounds)])
    ensures Connect(st, cmdCh, Message(CONNECT, userId, Some(host + [COLON])), clientKey, backend, tunnelDial)
              == Out(st, [Raise(IndexOutOfBounds)])
  {
    SplitTrailingDelimiter(host, COLON);
  }

  /** Every handler keeps the pool invariant, given that the channels the
      dials produce are new ones. */
  lemma ChannelReadKeepsInv(st: ClientState, c: ChanId, msg: Message, clientKey: Option<Text>,
                            backend: Option<ChanId>, tunnelDial: Option<ChanId>)
    requires PoolInv(st)
    requires backend.Some? && tunnelDial.Some? ==> backend.value != tunnelDial.value
    requires backend.Some? ==> backend.value !in st.pool
    requires tunnelDial.Some? ==> tunnelDial.value !in st.pool
    ensures PoolInv(ChannelRead(st, c, msg, clientKey, backend, tunnelDial).st)
  {
    if msg.msgType == CONNECT {
      ConnectKeepsInv(st, c, msg, clientKey, backend, tunnelDial);
    } else if msg.msgType == DISCONNECT {
      DisconnectKeepsInv(st, c);
    }
  }

  lemma DisconnectKeepsInv(st: ClientState, c: ChanId)
    requires PoolInv(st)
    ensures PoolInv(Disconnect(st, c).st)
  {
    if At(st.chans, c).next.Some? {
      var st1 := st.(chans := SetNext(st.chans, c, None));
      assert c !in st.pool;
      assert PoolInv(st1) by {
        forall i | 0 <= i < |st1.pool| ensures At(st1.chans, st1.pool[i]).next.None? {
          assert At(st.chans, st.pool[i]).next.None?;
        }
      }
      ReturnKeepsInv(st1, c);
    }
  }

  lemma ConnectKeepsInv(st: ClientState, cmdCh: ChanId, msg: Message, clientKey: Option<Text>,
                        backend: Option<ChanId>, tunnelDial: Option<ChanId>)
    requires PoolInv(st)
    requires backend.Some? && tunnelDial.Some? ==> backend.value != tunnelDial.value
    requires backend.Some? ==> backend.value !in st.pool
    requires tunnelDial.Some? ==> tunnelDial.value !in st.pool
    ensures PoolInv(Connect(st, cmdCh, msg, clientKey, backend, tunnelDial).st)
  {
    var o := Connect(st, cmdCh, msg, clientKey, backend, tunnelDial);
    if ParseTarget(msg.data).Ok? && 0 <= ParseTarget(msg.data).value.1 <= MAX_PORT && backend.Some? {
      var b := backend.value;
      var st1 := st.(chans := SetAutoRead(st.chans, b, false));
      assert PoolInv(st1);
      BorrowKeepsInv(st1, tunnelDial);
      var (st2, borrowed) := Borrow(st1, tunnelDial);
      if !borrowed.BorrowFailed? {
        var t := borrowed.chan;
        forall i | 0 <= i < |o.st.pool| ensures At(o.st.chans, o.st.pool[i]).next.None? {
          assert o.st.pool[i] in st2.pool;
          assert o.st.pool[i] != t && o.st.pool[i] != b;
        }
      }
    }
  }

  /** A DISCONNECT on a bound tunnel tears the session down on this side:
      the tunnel is unbound and pooled (or closed when the pool is full)
      and its backend is flushed and closed. */
  lemma DisconnectTearsDown(st: ClientState, t: ChanId)
    requires PoolInv(st)
    requires At(st.chans, t).next.Some?
    ensures var o := Disconnect(st, t);
      && FlushClose(At(st.chans, t).next.value) in o.effects
      && (|st.pool| <= MAX_POOL_SIZE ==> o.st.pool == st.pool + [t] && At(o.st.chans, t).next.None?)
      && (|st.pool| > MAX_POOL_SIZE ==> o.st.pool == st.pool && Close(t) in o.effects)
  {
  }

  /** The connection events keep the pool invariant too. */
  lemma EventsKeepInv(st: ClientState, c: ChanId)
    requires PoolInv(st)
    ensures PoolInv(Inactive(st, c).st)
    ensures PoolInv(WritabilityChanged(st, c).st)
  {
    RemoveKeepsInv(st, c);
    if st.cmd == Some(c) {
      RemoveKeepsInv(ClearBackends(st.(cmd := None)).0, c);
    }
  }
}

=== FILE: client_channel_manager.dfy ===
/** The proxy client's shared connection state: a FIFO pool of idle tunnel
    connections to the proxy server, the backend ("real server") channel
    of each user session keyed by user id, and the control channel. */
module ClientChannelManager {
  import opened Wrappers
  import opened Bytes
  import opened Channels

  /** A return finds the pool full when it already holds more than this. */
  const MAX_POOL_SIZE: nat := 100

  datatype ClientState = ClientState(
    chans: Table,
    pool: seq<ChanId>,               // proxyChannelPool, head first
    backends: map<Text, ChanId>,     // realServerChannels
    cmd: Option<ChanId>)             // cmdChannel

  predicate NoDup(s: seq<ChanId>) {
    forall i, j :: 0 <= i < j < |s| ==> s[i] != s[j]
  }

  /** The pool invariant: no channel twice, at most one over the limit,
      and no pooled channel bound to a backend. */
  ghost predicate PoolInv(st: ClientState) {
    && NoDup(st.pool)
    && |st.pool| <= MAX_POOL_SIZE + 1
    && forall i :: 0 <= i < |st.pool| ==> At(st.chans, st.pool[i]).next.None?
  }

  // ---------------------------------------------------------------------
  // Pool

  /** How a borrow was satisfied; `dial` below is the outcome of the
      connection attempt made when the pool is empty. */
  datatype Borrowed = Pooled(chan: ChanId) | Dialed(chan: ChanId) | BorrowFailed

  /** `borrowProxyChanel`: take the head of the pool, or else dial. */
  function Borrow(st: ClientState, dial: Option<ChanId>): (r: (ClientState, Borrowed))
    ensures r.1.Pooled? <==> |st.pool| > 0
    ensures r.1.Pooled? ==> [r.1.chan] + r.0.pool == st.pool
    ensures !r.1.Pooled? ==> r.0 == st && (r.1.Dialed? <==> dial.Some?)
    ensures r.1.Dialed? ==> r.1.chan == dial.value
    ensures r.0.chans == st.chans && r.0.backends == st.backends && r.0.cmd == st.cmd
  {
    if |st.pool| > 0 then (st.(pool := st.pool[1..]), Pooled(st.pool[0]))
    else if dial.Some? then (st, Dialed(dial.value))
    else (st, BorrowFailed)
  }

  /** `returnProxyChanel`: close the channel when the pool is over the
      limit; otherwise unbind it, let it read again and queue it. */
  function Return(st: ClientState, c: ChanId): (r: (ClientState, seq<Effect>))
    ensures |st.pool| > MAX_POOL_SIZE ==> r == (st, [Close(c)])
    ensures |st.pool| <= MAX_POOL_SIZE ==>
      && r.1 == []
      && r.0.pool == st.pool + [c]
      && At(r.0.chans, c) == At(st.chans, c).(next := None, autoRead := true)
      && (forall d :: d != c ==> At(r.0.chans, d) == At(st.chans, d))
      && r.0.backends == st.backends && r.0.cmd == st.cmd
  {
    if |st.pool| > MAX_POOL_SIZE then (st, [Close(c)])
    else
      var chans := SetNext(SetAutoRead(st.chans, c, true), c, None);
      (st.(chans := chans, pool := st.pool + [c]), [])
  }

  /** The position of the first `c` in `s`. */
  function FirstIndex(s: seq<ChanId>, c: ChanId): (i: nat)
    requires c in s
    ensures i < |s| && s[i] == c && c !in s[..i]
  {
    if s[0] == c then 0
    else
      assert s[1..][..FirstIndex(s[1..], c)] == s[1..1 + FirstIndex(s[1..], c)];
      1 + FirstIndex(s[1..], c)
  }

  /** `ConcurrentLinkedQueue.remove`: drop the first occurrence, if any. */
  function RemoveFirst(s: seq<ChanId>, c: ChanId): (r: seq<ChanId>)
    ensures c !in s ==> r == s
    ensures c in s ==> |r| == |s| - 1 && multiset(r) + multiset{c} == multiset(s)
    ensures forall d :: d in r ==> d in s
    // exactly the first occurrence goes; the rest keep their order
    ensures c in s ==> exists i :: 0 <= i < |s| && s[i] == c && c !in s[..i] && r == s[..i] + s[i + 1..]
  {
    if c in s then
      var i := FirstIndex(s, c);
      assert s == s[..i] + [c] + s[i + 1..];
      s[..i] + s[i + 1..]
    else s
  }

  /** `removeProxyChanel`: only the pool changes, losing the channel's
      first occurrence; nothing is closed. */
  function Remove(st: ClientState, c: ChanId): (r: ClientState)
    ensures r.chans == st.chans && r.backends == st.backends && r.cmd == st.cmd
    ensures c !in st.pool ==> r.pool == st.pool
    ensures c in st.pool ==>
      exists i :: 0 <= i < |st.pool| && st.pool[i] == c && c !in st.pool[..i] && r.pool == st.pool[..i] + st.pool[i + 1..]
    ensures NoDup(st.pool) ==> NoDup(r.pool) && c !in r.pool
  {
    RemoveFirstKeepsNoDupIf(st.pool, c);
    st.(pool := RemoveFirst(st.pool, c))
  }

  lemma RemoveFirstKeepsNoDupIf(s: seq<ChanId>, c: ChanId)
    ensures NoDup(s) ==> NoDup(RemoveFirst(s, c)) && c !in RemoveFirst(s, c)
  {
    if NoDup(s) { RemoveFirstKeepsNoDup(s, c); }
  }

  // ---------------------------------------------------------------------
  // Backends and the control channel

  function GetBackend(st: ClientState, userId: Text): (r: Option<ChanId>)
    ensures r.Some? <==> userId in st.backends
    ensures r.Some? ==> r.value == st.backends[userId]
  {
    if userId in st.backends then Some(st.backends[userId]) else None
  }

  function AddBackend(st: ClientState, userId: Text, b: ChanId): (r: ClientState)
    ensures r.backends.Keys == st.backends.Keys + {userId}
    ensures r.chans == st.chans && r.pool == st.pool && r.cmd == st.cmd
  {
    st.(backends := st.backends[userId := b])
  }

  /** `removeRealServerChannel`: the entry it removes, if there was one. */
  function RemoveBackend(st: ClientState, userId: Text): (r: (ClientState, Option<ChanId>))
    ensures r.0.backends.Keys == st.backends.Keys - {userId}
    ensures r.1 == GetBackend(st, userId)
    ensures r.0.chans == st.chans && r.0.pool == st.pool && r.0.cmd == st.cmd
  {
    (st.(backends := st.backends - {userId}), GetBackend(st, userId))
  }

  /** The backend map as a table: add, get and remove behave as a map,
      and entries for other users are untouched. */
  lemma BackendsAreAMap(st: ClientState, u: Text, v: Text, b: ChanId)
    requires u != v
    ensures GetBackend(AddBackend(st, u, b), u) == Some(b)
    ensures GetBackend(AddBackend(st, u, b), v) == GetBackend(st, v)
    ensures RemoveBackend(AddBackend(st, u, b), u).1 == Some(b)
    ensures GetBackend(RemoveBackend(st, u).0, u) == None
    ensures GetBackend(RemoveBackend(st, u).0, v) == GetBackend(st, v)
  {
  }

  /** `isRealServerReadable`: the conjunction of the two flags, evaluated
      left to right; an unset flag that is reached unboxes null and throws. */
  function IsRealServerReadable(t: Table, c: ChanId): (r: Result<bool, Fault>)
    ensures r == Ok(true) <==> At(t, c).clientWritable == Some(true) && At(t, c).userWritable == Some(true)
    ensures r.Err? <==> At(t, c).clientWritable.None? || (At(t, c).clientWritable == Some(true) && At(t, c).userWritable.None?)
    ensures r.Err? ==> r.error == NullPointer
  {
    match At(t, c).clientWritable
    case None => Err(NullPointer)
    case Some(false) => Ok(false)
    case Some(true) =>
      match At(t, c).userWritable
      case None => Err(NullPointer)
      case Some(u) => Ok(u)
  }

  /** The backends `clearRealServerChannels` flushes and closes: the
      active ones. */
  function ActiveBackends(st: ClientState): (r: set<ChanId>)
    ensures forall b :: b in r <==> (exists u :: u in st.backends && st.backends[u] == b) && At(st.chans, b).active
  {
    set u | u in st.backends && At(st.chans, st.backends[u]).active :: st.backends[u]
  }

  /** `clearRealServerChannels`: flush-and-close every active backend,
      then forget them all. */
  function ClearBackends(st: ClientState): (r: (ClientState, seq<Effect>))
    ensures r.0.backends == map[]
    ensures r.0.chans == st.chans && r.0.pool == st.pool && r.0.cmd == st.cmd
    ensures r.1 == [FlushCloseEach(ActiveBackends(st))]
  {
    (st.(backends := map[]), [FlushCloseEach(ActiveBackends(st))])
  }

  // ---------------------------------------------------------------------
  // Properties

  /** The pool is first in, first out: a channel returned behind others is
      borrowed only after them, and what is borrowed first is the old head. */
  lemma ReturnThenBorrow(st: ClientState, c: ChanId, dial: Option<ChanId>)
    requires 0 < |st.pool| <= MAX_POOL_SIZE
    ensures var r := Borrow(Return(st, c).0, dial);
      && r.1 == Pooled(st.pool[0])
      && r.0.pool == st.pool[1..] + [c]
  {
  }

  /** Returning to an empty pool and borrowing gives the same channel back,
      unbound and reading, without dialing. */
  lemma ReturnToEmptyThenBorrow(st: ClientState, c: ChanId, dial: Option<ChanId>)
    requires st.pool == []
    ensures var r := Borrow(Return(st, c).0, dial);
      && r.1 == Pooled(c) && r.0.pool == []
      && At(r.0.chans, c).next.None? && At(r.0.chans, c).autoRead
  {
  }

  /** Returning each channel of a list in turn. */
  function ReturnAll(st: ClientState, cs: seq<ChanId>): (r: (ClientState, seq<Effect>))
    decreases |cs|
  {
    if |cs| == 0 then (st, [])
    else
      var (st1, e1) := Return(st, cs[0]);
      var (st2, e2) := ReturnAll(st1, cs[1..]);
      (st2, e1 + e2)
  }

  /** The number of channels, of `n` returned to a pool of `size`, that
      are queued: the size check lets the pool grow to one over the limit. */
  function Queued(size: nat, n: nat): nat {
    if n <= MAX_POOL_SIZE + 1 - size then n else if size <= MAX_POOL_SIZE + 1 then MAX_POOL_SIZE + 1 - size else 0
  }

  /** Of channels returned in turn, the first `Queued` ones join the pool
      in order. */
  lemma {:induction false} ReturnAllPool(st: ClientState, cs: seq<ChanId>)
    requires |st.pool| <= MAX_POOL_SIZE + 1
    ensures ReturnAll(st, cs).0.pool == st.pool + cs[..Queued(|st.pool|, |cs|)]
    decreases |cs|
  {
    if |cs| > 0 {
      var st1 := Return(st, cs[0]).0;
      ReturnAllPool(st1, cs[1..]);
      if |st.pool| <= MAX_POOL_SIZE {
        assert st1.pool == st.pool + [cs[0]];
        var k1 := Queued(|st1.pool|, |cs| - 1);
        assert Queued(|st.pool|, |cs|) == k1 + 1;
        assert cs[..k1 + 1] == [cs[0]] + cs[1..][..k1];
      } else {
        assert st1 == st;
        assert cs[..0] == [];
      }
    }
  }

  /** ... and every later one is closed, in order. */
  lemma {:induction false} ReturnAllCloses(st: ClientState, cs: seq<ChanId>)
    requires |st.pool| <= MAX_POOL_SIZE + 1
    ensures var k := Queued(|st.pool|, |cs|);
      var e := ReturnAll(st, cs).1;
      && |e| == |cs| - k
      && forall i :: 0 <= i < |e| ==> e[i] == Close(cs[k + i])
    decreases |cs|
  {
    if |cs| > 0 {
      var (st1, e1) := Return(st, cs[0]);
      var e2 := ReturnAll(st1, cs[1..]).1;
      ReturnAllCloses(st1, cs[1..]);
      var e := ReturnAll(st, cs).1;
      assert e == e1 + e2;
      if |st.pool| <= MAX_POOL_SIZE {
        assert e1 == [] && |st1.pool| == |st.pool| + 1;
        assert Queued(|st.pool|, |cs|) == Queued(|st1.pool|, |cs| - 1) + 1;
      } else {
        assert st1 == st && e1 == [Close(cs[0])];
        assert Queued(|st.pool|, |cs|) == 0 && Queued(|st1.pool|, |cs| - 1) == 0;
        forall i | 0 <= i < |e| ensures e[i] == Close(cs[i]) {
          if i > 0 { assert e[i] == e2[i - 1]; }
        }
      }
    }
  }

  /** Borrowing keeps the invariant and hands out a channel that is no
      longer pooled. */
  lemma BorrowKeepsInv(st: ClientState, dial: Option<ChanId>)
    requires PoolInv(st)
    requires dial.Some? ==> dial.value !in st.pool
    ensures PoolInv(Borrow(st, dial).0)
    ensures var r := Borrow(st, dial); !r.1.BorrowFailed? ==> r.1.chan !in r.0.pool
  {
  }

  /** Returning an unpooled channel keeps the invariant. */
  lemma ReturnKeepsInv(st: ClientState, c: ChanId)
    requires PoolInv(st)
    requires c !in st.pool
    ensures PoolInv(Return(st, c).0)
  {
    var r := Return(st, c).0;
    if |st.pool| <= MAX_POOL_SIZE {
      forall i | 0 <= i < |r.pool| ensures At(r.chans, r.pool[i]).next.None? {
        if i < |st.pool| {
          assert r.pool[i] == st.pool[i];
        }
      }
    }
  }

  /** Removing a channel keeps the invariant and leaves it unpooled. */
  lemma RemoveFirstKeepsNoDup(s: seq<ChanId>, c: ChanId)
    requires NoDup(s)
    ensures NoDup(RemoveFirst(s, c)) && c !in RemoveFirst(s, c)
  {
    if c in s {
      var i := FirstIndex(s, c);
      DropKeepsNoDup(s, i);
    }
  }

  /** Dropping position `i` of a duplicate-free sequence leaves it
      duplicate-free and without `s[i]`. */
  lemma DropKeepsNoDup(s: seq<ChanId>, i: nat)
    requires NoDup(s) && i < |s|
    ensures NoDup(s[..i] + s[i + 1..]) && s[i] !in s[..i] + s[i + 1..]
  {
    var r := s[..i] + s[i + 1..];
    assert |r| == |s| - 1;
    forall k | 0 <= k < |r| ensures r[k] == s[if k < i then k else k + 1] {
      if k < i { assert r[k] == s[..i][k]; } else { assert r[k] == s[i + 1..][k - i]; }
    }
    forall k | 0 <= k < |r| ensures r[k] != s[i] {
      assert r[k] == s[if k < i then k else k + 1];
    }
    forall k, l | 0 <= k < l < |r| ensures r[k] != r[l] {
      assert r[k] == s[if k < i then k else k + 1];
      assert r[l] == s[if l < i then l else l + 1];
    }
  }

  lemma RemoveKeepsInv(st: ClientState, c: ChanId)
    requires PoolInv(st)
    ensures PoolInv(Remove(st, c)) && c !in Remove(st, c).pool
  {
    RemoveFirstKeepsNoDup(st.pool, c);
    var r := Remove(st, c);
    forall i | 0 <= i < |r.pool| ensures At(r.chans, r.pool[i]).next.None? {
      assert r.pool[i] in st.pool;
    }
  }
}

=== FILE: go_client.dfy ===
/** The Go client's message handler (`LPMessageHandler`) as pure
    transitions over the `NextConn` links between connection handlers. The
    connection pool and the backend handler are not part of this model;
    returning to the pool and dialling a backend appear as effects. */
module GoClient {
  import opened Wrappers
  import opened Bytes
  import opened GoCodec
  import ProxyMessage

  type ConnId = nat

  /** Seconds between heartbeat ticks. */
  const HEARTBEAT_INTERVAL: nat := 30

  /** `NextConn` of every connection handler; a missing entry is nil. */
  type Links = map<ConnId, ConnId>

  datatype Effect =
    | Write(conn: ConnId, data: seq<byte>)               // raw bytes to a peer connection
    | CloseConn(conn: ConnId)
    | ReturnToPool(conn: ConnId)
    | Send(conn: ConnId, msg: Message)                   // an encoded frame
    | DialBackend(on: ConnId, userId: Text, addr: Text)  // the CONNECT goroutine

  datatype Step = Step(links: Links, effects: seq<Effect>)

  /** Every link is matched by the link back, and no handler is linked to
      itself (on a self-link the DISCONNECT branch would clear `NextConn`
      and then dereference it). */
  ghost predicate Symmetric(links: Links) {
    forall c :: c in links ==> links[c] != c && links[c] in links && links[links[c]] == c
  }

  /** Clearing both `NextConn` links of a bound handler and closing the
      peer, as the DISCONNECT branch and `ConnError` both do. An unbound
      handler is left alone. */
  function Unbind(links: Links, c: ConnId): (s: Step)
    ensures c !in links ==> s == Step(links, [])
    ensures c in links ==>
      && s.effects == [CloseConn(links[c])]
      && c !in s.links && links[c] !in s.links
      && forall x :: x in links && x != c && x != links[c] ==> x in s.links && s.links[x] == links[x]
    ensures s.links.Keys <= links.Keys
  {
    if c in links then
      var peer := links[c];
      Step(links - {c, peer}, [CloseConn(peer)])
    else
      Step(links, [])
  }

  /** `MessageReceived` for a handler whose client key is `clientKey` (the
      empty string on tunnel handlers, the client key on the control one). */
  function MessageReceived(links: Links, clientKey: Text, c: ConnId, msg: Message): (s: Step)
    ensures msg.msgType == ProxyMessage.CONNECT ==> s == Step(links, [DialBackend(c, msg.uri, msg.data)])
    ensures msg.msgType == ProxyMessage.TRANSFER ==>
      s.links == links && s.effects == (if c in links then [Write(links[c], msg.data)] else [])
    ensures msg.msgType == ProxyMessage.DISCONNECT ==>
      && c !in s.links
      && (c in links ==> links[c] !in s.links)
      && s.effects == (if c in links then [CloseConn(links[c])] else []) + (if clientKey == [] then [ReturnToPool(c)] else [])
      && (forall x :: x in links && x != c && (c in links ==> x != links[c]) ==> x in s.links && s.links[x] == links[x])
      && s.links.Keys <= links.Keys
    ensures msg.msgType !in {ProxyMessage.CONNECT, ProxyMessage.TRANSFER, ProxyMessage.DISCONNECT} ==>
      s == Step(links, [])
  {
    if msg.msgType == ProxyMessage.CONNECT then
      Step(links, [DialBackend(c, msg.uri, msg.data)])
    else if msg.msgType == ProxyMessage.TRANSFER then
      Step(links, if c in links then [Write(links[c], msg.data)] else [])
    else if msg.msgType == ProxyMessage.DISCONNECT then
      var u := Unbind(links, c);
      if clientKey == [] then Step(u.links, u.effects + [ReturnToPool(c)]) else u
    else
      Step(links, [])
  }

  /** `ConnSuccess`: only the control handler, which has a client key,
      authenticates. */
  function ConnSuccess(clientKey: Text, c: ConnId): (effects: seq<Effect>)
    ensures clientKey == [] <==> effects == []
    ensures clientKey != [] ==> effects == [Send(c, Message(ProxyMessage.AUTH, clientKey, []))]
  {
    if clientKey != [] then [Send(c, Message(ProxyMessage.AUTH, clientKey, []))] else []
  }

  /** `ConnError`: the bound peer, if any, is unlinked and closed. Stopping
      the heartbeat and the three-second pause are not modelled. */
  function ConnError(links: Links, c: ConnId): (s: Step)
    ensures c !in s.links
    ensures c in links ==> s.effects == [CloseConn(links[c])] && links[c] !in s.links
    ensures c !in links ==> s == Step(links, [])
    ensures forall x :: x in links && x != c && (c in links ==> x != links[c]) ==> x in s.links && s.links[x] == links[x]
    ensures s.links.Keys <= links.Keys
  {
    Unbind(links, c)
  }

  /** One heartbeat tick at time `now` (seconds) for a connection last read
      at `readTime`: two silent intervals close it, otherwise a heartbeat
      frame goes out. */
  function HeartbeatTick(c: ConnId, now: int, readTime: int): (e: Effect)
    ensures e == CloseConn(c) <==> now - readTime >= 2 * HEARTBEAT_INTERVAL
    ensures e != CloseConn(c) ==> e == Send(c, Message(ProxyMessage.HEARTBEAT, [], []))
  {
    if now - readTime >= 2 * HEARTBEAT_INTERVAL then CloseConn(c)
    else Send(c, Message(ProxyMessage.HEARTBEAT, [], []))
  }

  /** The heartbeat goroutine's loop for `n` ticks, the first one
      `HEARTBEAT_INTERVAL` after `start`, with no read in between: it stops
      at the first tick that closes the connection. */
  function HeartbeatLoop(c: ConnId, start: int, readTime: int, n: nat): (es: seq<Effect>)
    ensures |es| <= n
    // every tick but a closing last one sends a heartbeat
    ensures forall i :: 0 <= i < |es| - 1 ==> es[i] == Send(c, Message(ProxyMessage.HEARTBEAT, [], []))
    ensures |es| > 0 ==> es[|es| - 1] == HeartbeatTick(c, start + |es| * HEARTBEAT_INTERVAL, readTime)
    // each tick is the decision for its own time
    ensures forall i :: 0 <= i < |es| ==> es[i] == HeartbeatTick(c, start + (i + 1) * HEARTBEAT_INTERVAL, readTime)
    // the loop ends early only because it closed
    ensures |es| < n ==> |es| > 0 && es[|es| - 1] == CloseConn(c)
    decreases n
  {
    if n == 0 then []
    else
      var e := HeartbeatTick(c, start + HEARTBEAT_INTERVAL, readTime);
      if e == CloseConn(c) then [e]
      else
        var rest := HeartbeatLoop(c, start + HEARTBEAT_INTERVAL, readTime, n - 1);
        assert |rest| > 0 ==> start + (|rest| + 1) * HEARTBEAT_INTERVAL == start + HEARTBEAT_INTERVAL + |rest| * HEARTBEAT_INTERVAL;
        [e] + rest
  }

  /** A connection that reads nothing after `readTime` gets exactly one
      heartbeat, at the first tick, and is closed at the second. */
  lemma {:induction false} SilentConnectionClosed(c: ConnId, readTime: int, n: nat)
    requires n >= 2
    ensures HeartbeatLoop(c, readTime, readTime, n)
      == [Send(c, Message(ProxyMessage.HEARTBEAT, [], [])), CloseConn(c)]
  {
    var hb := Send(c, Message(ProxyMessage.HEARTBEAT, [], []));
    assert HeartbeatTick(c, readTime + HEARTBEAT_INTERVAL, readTime) == hb;
    assert HeartbeatTick(c, readTime + 2 * HEARTBEAT_INTERVAL, readTime) == CloseConn(c);
    assert HeartbeatLoop(c, readTime + HEARTBEAT_INTERVAL, readTime, n - 1) == [CloseConn(c)];
  }

  /** Unbinding keeps the links symmetric and leaves nothing pointing at
      either end of the broken pair. */
  lemma {:induction false} UnbindPreservesSymmetry(links: Links, c: ConnId)
    requires Symmetric(links)
    ensures Symmetric(Unbind(links, c).links)
    ensures c in links ==> forall x :: x in Unbind(links, c).links ==>
      Unbind(links, c).links[x] != c && Unbind(links, c).links[x] != links[c]
  {
    if c in links {
      var s := Unbind(links, c).links;
      var peer := links[c];
      forall x | x in s
        ensures s[x] in s && s[s[x]] == x
        ensures s[x] != c && s[x] != peer
      {
        assert links[links[x]] == x;
      }
    }
  }

  /** Every message keeps the links symmetric. */
  lemma {:induction false} MessageReceivedPreservesSymmetry(links: Links, clientKey: Text, c: ConnId, msg: Message)
    requires Symmetric(links)
    ensures Symmetric(MessageReceived(links, clientKey, c, msg).links)
  {
    UnbindPreservesSymmetry(links, c);
  }
}

=== FILE: go_codec.dfy ===
/** The Go client's frame codec:
      bodyLen:u32 | type:u8 | uriLen:u8 | uri | data
    with no serial number. `Decode` reads one frame from the front of a
    receive buffer and reports how many bytes it consumed. */
module GoCodec {
  import opened Wrappers
  import opened Bytes

  const LEN_SIZE: nat := 4
  const TYPE_SIZE: nat := 1
  const URI_LENGTH_SIZE: nat := 1

  /** A Go `Message`; an empty uri or data and a nil one are the same here. */
  datatype Message = Message(msgType: byte, uri: Text, data: seq<byte>)

  /** Type, uri-length byte, uri and data. */
  function BodyLen(m: Message): nat {
    TYPE_SIZE + URI_LENGTH_SIZE + |m.uri| + |m.data|
  }

  /** `Encode(msg)`; a nil message encodes to nothing. Go's `uint32(...)` and
      `byte(...)` conversions keep the low bits. */
  function Encode(msg: Option<Message>): (out: seq<byte>)
    ensures msg.None? ==> out == []
    ensures msg.Some? ==>
      var m := msg.value;
      && |out| == LEN_SIZE + BodyLen(m)
      && Uint32(out[..LEN_SIZE]) == BodyLen(m) % TWO_32
      && out[LEN_SIZE] == m.msgType
      && out[LEN_SIZE + TYPE_SIZE] == LowByte(|m.uri|)
      && out[LEN_SIZE + TYPE_SIZE + URI_LENGTH_SIZE..LEN_SIZE + TYPE_SIZE + URI_LENGTH_SIZE + |m.uri|] == m.uri
      && out[LEN_SIZE + TYPE_SIZE + URI_LENGTH_SIZE + |m.uri|..] == m.data
  {
    match msg
    case None => []
    case Some(m) =>
      var len := Uint32Bytes(BodyLen(m) % TWO_32);
      var out := len + [m.msgType, LowByte(|m.uri|)] + m.uri + m.data;
      assert out[..LEN_SIZE] == len;
      assert out[LEN_SIZE + TYPE_SIZE + URI_LENGTH_SIZE..LEN_SIZE + TYPE_SIZE + URI_LENGTH_SIZE + |m.uri|] == m.uri;
      assert out[LEN_SIZE + TYPE_SIZE + URI_LENGTH_SIZE + |m.uri|..] == m.data;
      out
  }

  /** What `Decode` returns: `(nil, 0)`, a message with the bytes it
      consumed, or a run-time panic (a slice or index out of range). */
  datatype DecodeOutcome = Incomplete | Decoded(msg: Message, consumed: nat) | Panic

  /** The end of the uri inside the body: `TYPE_SIZE+URI_LENGTH_SIZE+uriLen`.
      With `uriLen` a `uint8` the sum is `uint8` arithmetic and wraps (as
      written); the corrected reading uses unbounded arithmetic. */
  function UriEnd(uriLen: byte, wraps: bool): (e: nat)
    ensures !wraps ==> e == TYPE_SIZE + URI_LENGTH_SIZE + uriLen
    ensures wraps ==> (e == TYPE_SIZE + URI_LENGTH_SIZE + uriLen <==> uriLen < 0xFE)
  {
    if wraps then (TYPE_SIZE + URI_LENGTH_SIZE + uriLen) % TWO_8 else TYPE_SIZE + URI_LENGTH_SIZE + uriLen
  }

  /** The decoder, parametrised by the uri-end arithmetic. */
  function DecodeWith(buf: seq<byte>, wraps: bool): (r: DecodeOutcome)
    // a buffer holding fewer bytes than the announced frame consumes nothing
    ensures (&& |buf| >= LEN_SIZE && |buf| < TWO_32 && Uint32(buf[..LEN_SIZE]) + LEN_SIZE < TWO_32
             && |buf| < LEN_SIZE + Uint32(buf[..LEN_SIZE]))
            ==> r == Incomplete
    // a decoded frame consumes exactly the length field plus the announced body
    ensures r.Decoded? ==>
      && |buf| >= LEN_SIZE
      && r.consumed == LEN_SIZE + Uint32(buf[..LEN_SIZE])
      && r.consumed <= |buf|
      && r.consumed == LEN_SIZE + BodyLen(r.msg)
      && r.msg.msgType == buf[LEN_SIZE]
      && buf[LEN_SIZE + TYPE_SIZE] == |r.msg.uri|
      && r.msg.uri == buf[LEN_SIZE + TYPE_SIZE + URI_LENGTH_SIZE..LEN_SIZE + TYPE_SIZE + URI_LENGTH_SIZE + |r.msg.uri|]
      && r.msg.data == buf[LEN_SIZE + TYPE_SIZE + URI_LENGTH_SIZE + |r.msg.uri|..r.consumed]
  {
    if |buf| < LEN_SIZE then Panic  // buf[0:LEN_SIZE]
    else
      var bodyLen := Uint32(buf[..LEN_SIZE]);
      var need := (bodyLen + LEN_SIZE) % TWO_32;        // uint32 addition
      if |buf| % TWO_32 < need then Incomplete           // uint32(len(buf))
      else if need < LEN_SIZE then Panic                 // buf[LEN_SIZE:n] with n < LEN_SIZE
      else
        var n := need;
        assert n <= |buf| % TWO_32 <= |buf|;
        var body := buf[LEN_SIZE..n];
        if |body| < TYPE_SIZE + URI_LENGTH_SIZE then Panic  // body[0], body[TYPE_SIZE]
        else
          var uriEnd := UriEnd(body[TYPE_SIZE], wraps);
          if uriEnd < TYPE_SIZE + URI_LENGTH_SIZE || uriEnd > |body| then Panic
          else
            SliceOfSlice(buf, LEN_SIZE, n, TYPE_SIZE + URI_LENGTH_SIZE, uriEnd);
            SliceOfSlice(buf, LEN_SIZE, n, uriEnd, uriEnd);
            Decoded(Message(body[0], body[TYPE_SIZE + URI_LENGTH_SIZE..uriEnd], body[uriEnd..]), n)
  }

  /** `Decode` as written. */
  function Decode(buf: seq<byte>): DecodeOutcome {
    DecodeWith(buf, true)
  }

  /** `Decode` with the uri end computed without wrap-around. */
  function DecodeFixed(buf: seq<byte>): DecodeOutcome {
    DecodeWith(buf, false)
  }

  /** Layout facts of an encoded message followed by arbitrary further bytes. */
  lemma {:induction false} EncodedLayout(m: Message, rest: seq<byte>)
    requires |m.uri| < TWO_8
    requires LEN_SIZE + BodyLen(m) < TWO_32
    ensures var buf := Encode(Some(m)) + rest;
      && Uint32(buf[..LEN_SIZE]) == BodyLen(m)
      && buf[LEN_SIZE..LEN_SIZE + BodyLen(m)] == Encode(Some(m))[LEN_SIZE..]
  {
    var e := Encode(Some(m));
    var buf := e + rest;
    assert buf[..LEN_SIZE] == e[..LEN_SIZE];
    assert buf[LEN_SIZE..LEN_SIZE + BodyLen(m)] == e[LEN_SIZE..];
  }

  /** A buffer holding a whole frame whose uri fits inside its body
      decodes to the fields at their fixed offsets. */
  lemma {:induction false} DecodeWhole(buf: seq<byte>, wraps: bool)
    requires LEN_SIZE + TYPE_SIZE < |buf| < TWO_32
    requires LEN_SIZE + Uint32(buf[..LEN_SIZE]) <= |buf|
    requires TYPE_SIZE + URI_LENGTH_SIZE + buf[LEN_SIZE + TYPE_SIZE] <= Uint32(buf[..LEN_SIZE])
    requires wraps ==> buf[LEN_SIZE + TYPE_SIZE] < 0xFE
    ensures var n := LEN_SIZE + Uint32(buf[..LEN_SIZE]);
      var u := LEN_SIZE + TYPE_SIZE + URI_LENGTH_SIZE + buf[LEN_SIZE + TYPE_SIZE];
      DecodeWith(buf, wraps) == Decoded(Message(buf[LEN_SIZE], buf[LEN_SIZE + TYPE_SIZE + URI_LENGTH_SIZE..u], buf[u..n]), n)
  {
    var n := LEN_SIZE + Uint32(buf[..LEN_SIZE]);
    assert (Uint32(buf[..LEN_SIZE]) + LEN_SIZE) % TWO_32 == n;
    assert |buf| % TWO_32 == |buf|;
    var body := buf[LEN_SIZE..n];
    var uriLen := buf[LEN_SIZE + TYPE_SIZE];
    assert body[TYPE_SIZE] == uriLen;
    assert UriEnd(uriLen, wraps) == TYPE_SIZE + URI_LENGTH_SIZE + uriLen;
    var u := TYPE_SIZE + URI_LENGTH_SIZE + uriLen;
    SliceOfSlice(buf, LEN_SIZE, n, TYPE_SIZE + URI_LENGTH_SIZE, u);
    SliceOfSlice(buf, LEN_SIZE, n, u, u);
  }

  /** Round trip of the corrected decoder: a frame followed by any bytes
      decodes to its message and consumes exactly the frame. */
  lemma {:induction false} RoundTripFixed(m: Message, rest: seq<byte>)
    requires |m.uri| < TWO_8
    requires |Encode(Some(m)) + rest| < TWO_32
    ensures DecodeFixed(Encode(Some(m)) + rest) == Decoded(m, |Encode(Some(m))|)
  {
    RoundTripWith(m, rest, false);
  }

  lemma {:induction false} RoundTripWith(m: Message, rest: seq<byte>, wraps: bool)
    requires |m.uri| < TWO_8 && (wraps ==> |m.uri| < 0xFE)
    requires |Encode(Some(m)) + rest| < TWO_32
    ensures DecodeWith(Encode(Some(m)) + rest, wraps) == Decoded(m, |Encode(Some(m))|)
  {
    var e := Encode(Some(m));
    var buf := e + rest;
    assert buf[..LEN_SIZE] == e[..LEN_SIZE];
    assert Uint32(buf[..LEN_SIZE]) == BodyLen(m);
    assert buf[LEN_SIZE] == m.msgType;
    assert buf[LEN_SIZE + TYPE_SIZE] == |m.uri|;
    DecodeWhole(buf, wraps);
    var u := LEN_SIZE + TYPE_SIZE + URI_LENGTH_SIZE + |m.uri|;
    assert buf[LEN_SIZE + TYPE_SIZE + URI_LENGTH_SIZE..u] == e[LEN_SIZE + TYPE_SIZE + URI_LENGTH_SIZE..u];
    assert buf[u..|e|] == e[u..];
  }

  /** Round trip of the decoder as written, for uris of at most 253 bytes. */
  lemma {:induction false} RoundTrip(m: Message, rest: seq<byte>)
    requires |m.uri| < 0xFE
    requires |Encode(Some(m)) + rest| < TWO_32
    ensures Decode(Encode(Some(m)) + rest) == Decoded(m, |Encode(Some(m))|)
  {
    RoundTripWith(m, rest, true);
  }

  /** A uri of 254 or 255 bytes is encoded faithfully but the decoder as
      written panics on it: the uint8 sum `2 + uriLen` wraps to 0 or 1,
      below the start of the uri slice. */
  lemma {:induction false} LongUriPanics(m: Message, rest: seq<byte>)
    requires |m.uri| == 0xFE || |m.uri| == 0xFF
    requires |Encode(Some(m)) + rest| < TWO_32
    ensures Decode(Encode(Some(m)) + rest) == Panic
  {
    EncodedLayout(m, rest);
    var e := Encode(Some(m));
    var body := (e + rest)[LEN_SIZE..LEN_SIZE + BodyLen(m)];
    assert body[TYPE_SIZE] == |m.uri|;
  }

  /** The corrected decoder reads back exactly the messages the decoder as
      written panics on. */
  lemma {:induction false} FixedAcceptsLongUri(m: Message, rest: seq<byte>)
    requires |m.uri| == 0xFE || |m.uri| == 0xFF
    requires |Encode(Some(m)) + rest| < TWO_32
    ensures DecodeFixed(Encode(Some(m)) + rest) == Decoded(m, |Encode(Some(m))|)
  {
    RoundTripWith(m, rest, false);
  }

  /** Framing is resumable: every strict prefix of a frame that already
      holds the length field consumes nothing, so bytes arriving in two
      reads decode the same as in one. */
  lemma {:induction false} PrefixIncomplete(m: Message, k: nat)
    requires LEN_SIZE <= k < |Encode(Some(m))|
    requires LEN_SIZE + BodyLen(m) < TWO_32
    ensures Decode(Encode(Some(m))[..k]) == Incomplete
    ensures DecodeFixed(Encode(Some(m))[..k]) == Incomplete
  {
    var e := Encode(Some(m));
    assert e[..k][..LEN_SIZE] == e[..LEN_SIZE];
  }
}

=== FILE: java_codec.dfy ===
/** The Java frame codec. The encoder writes
      length:u32 | type:u8 | uriLength:u8 | uri | data
    and the decoder reads
      length:u32 | type:u8 | serial:u64 | uriLength:i8 | uri | data,
    so the two sides do not agree; each is modelled against its own layout.
    The decoder's input is one frame already cut out of the byte stream by
    the length-field framing stage (which keeps the length field). */
module JavaCodec {
  import opened Wrappers
  import opened Bytes
  import opened ProxyMessage

  const HEADER_SIZE: nat := 4
  const TYPE_SIZE: nat := 1
  const SERIAL_NUMBER_SIZE: nat := 8
  const URI_LENGTH_SIZE: nat := 1

  /** Bytes in front of the uri after the length field, in the decoder's layout. */
  const FIXED_BODY: nat := TYPE_SIZE + SERIAL_NUMBER_SIZE + URI_LENGTH_SIZE

  // ---------------------------------------------------------------------
  // Encoder

  /** Everything after the length field: type, uri length, uri, data; an
      absent uri or absent data counts as empty. */
  function BodyLength(m: Message): nat {
    TYPE_SIZE + URI_LENGTH_SIZE + |m.uri.GetOr([])| + |m.data.GetOr([])|
  }

  /** The encoder's output for one message. */
  function Encode(m: Message): (out: seq<byte>)
    ensures |out| == HEADER_SIZE + BodyLength(m)
    ensures BodyLength(m) < TWO_31 ==> Int32(out[..4]) == BodyLength(m)
    ensures out[4] == m.msgType
    ensures out[5] == LowByte(|m.uri.GetOr([])|)
    ensures out[6..6 + |m.uri.GetOr([])|] == m.uri.GetOr([])
    ensures out[6 + |m.uri.GetOr([])|..] == m.data.GetOr([])
  {
    var uri := m.uri.GetOr([]);
    var data := m.data.GetOr([]);
    var head := Int32Bytes(BodyLength(m)) + [m.msgType];
    var uriPart := match m.uri
      case None => [0]
      case Some(u) => [LowByte(|u|)] + u;
    assert uriPart == [LowByte(|uri|)] + uri;
    var out := head + uriPart + data;
    assert out[..4] == Int32Bytes(BodyLength(m));
    assert out[6..6 + |uri|] == uri;
    assert out[6 + |uri|..] == data;
    out
  }

  /** An absent uri is written as a single zero length byte, exactly like
      an empty one, and absent data adds no bytes. */
  lemma AbsentFieldsEncodeAsEmpty(t: byte)
    ensures Encode(Message(t, None, None)) == Encode(Message(t, Some([]), Some([])))
    ensures Encode(Message(t, None, None)) == [0, 0, 0, 2, t, 0]
  {
  }

  /** The uri length travels in one byte, so a uri of 256 bytes or more is
      announced with the wrong length. */
  lemma UriLengthTruncated(t: byte, u: Text)
    requires |u| >= 256
    ensures Encode(Message(t, Some(u), None))[5] != |u|
  {
  }

  // ---------------------------------------------------------------------
  // Decoder

  /** A decoded frame: the message and the serial number read alongside it. */
  datatype DecodedFrame = DecodedFrame(msg: Message, serial: nat)

  /** The Java exceptions a decode can end in. */
  datatype DecodeError =
    | IndexOutOfBounds   // a read past the readable bytes
    | NegativeArraySize  // an array allocated with a negative length

  /** The uri-length byte as the decoder interprets it. */
  function UriLength(b: byte, signedUriLength: bool): (n: int)
    ensures !signedUriLength ==> n == b
    ensures signedUriLength ==> (n < 0 <==> b >= 0x80) && (n >= 0 ==> n == b)
  {
    if signedUriLength then SignedByte(b) else b as int
  }

  /** The decoder, parametrised by whether the uri-length byte is read as a
      signed Java `byte` (as written) or unsigned (the corrected reading).
      `Ok(None)` is "no message yet". */
  function DecodeWith(frame: seq<byte>, signedUriLength: bool): (r: Result<Option<DecodedFrame>, DecodeError>)
    // too few bytes for the length field, or for the declared frame: no message
    ensures |frame| < HEADER_SIZE ==> r == Ok(None)
    ensures |frame| >= HEADER_SIZE && |frame| - HEADER_SIZE < Int32(frame[..HEADER_SIZE]) ==> r == Ok(None)
    // a decoded frame: the fields, in order, exactly fill the declared
    // length (modulo 2^32, since Java's int arithmetic wraps; exactly when
    // the declared length is not negative)
    ensures r.Ok? && r.value.Some? ==>
      var f := r.value.value;
      && f.msg.uri.Some? && f.msg.data.Some?
      && var uri := f.msg.uri.value;
      && var data := f.msg.data.value;
      && (Int32(frame[..HEADER_SIZE]) - (FIXED_BODY + |uri| + |data|)) % TWO_32 == 0
      && (Int32(frame[..HEADER_SIZE]) >= 0 ==> Int32(frame[..HEADER_SIZE]) == FIXED_BODY + |uri| + |data|)
      && |frame| >= HEADER_SIZE + FIXED_BODY + |uri| + |data|
      && f.msg.msgType == frame[HEADER_SIZE]
      && f.serial == Uint64(frame[HEADER_SIZE + TYPE_SIZE..HEADER_SIZE + TYPE_SIZE + SERIAL_NUMBER_SIZE])
      && frame[HEADER_SIZE + FIXED_BODY - 1] == |uri|
      && uri == frame[HEADER_SIZE + FIXED_BODY..HEADER_SIZE + FIXED_BODY + |uri|]
      && data == frame[HEADER_SIZE + FIXED_BODY + |uri|..HEADER_SIZE + FIXED_BODY + |uri| + |data|]
  {
    if |frame| < HEADER_SIZE then Ok(None)
    else
      var frameLength := Int32(frame[..HEADER_SIZE]);
      var rest := frame[HEADER_SIZE..];
      if |rest| < frameLength then Ok(None)
      else if |rest| < FIXED_BODY then Err(IndexOutOfBounds)
      else
        var t := rest[0];
        var serial := Uint64(rest[TYPE_SIZE..TYPE_SIZE + SERIAL_NUMBER_SIZE]);
        var uriLength := UriLength(rest[FIXED_BODY - 1], signedUriLength);
        if uriLength < 0 then Err(NegativeArraySize)
        else if |rest| < FIXED_BODY + uriLength then Err(IndexOutOfBounds)
        else
          var dataLength := Wrap32(frameLength - TYPE_SIZE - SERIAL_NUMBER_SIZE - URI_LENGTH_SIZE - uriLength);
          if dataLength < 0 then Err(NegativeArraySize)
          else if |rest| < FIXED_BODY + uriLength + dataLength then Err(IndexOutOfBounds)
          else
            var uri := rest[FIXED_BODY..FIXED_BODY + uriLength];
            var data := rest[FIXED_BODY + uriLength..FIXED_BODY + uriLength + dataLength];
            assert frameLength - (FIXED_BODY + |uri| + |data|)
                == (frameLength - TYPE_SIZE - SERIAL_NUMBER_SIZE - URI_LENGTH_SIZE - uriLength) - dataLength;
            SliceOfSuffix(frame, HEADER_SIZE, TYPE_SIZE, TYPE_SIZE + SERIAL_NUMBER_SIZE);
            SliceOfSuffix(frame, HEADER_SIZE, FIXED_BODY, FIXED_BODY + uriLength);
            SliceOfSuffix(frame, HEADER_SIZE, FIXED_BODY + uriLength, FIXED_BODY + uriLength + dataLength);
            Ok(Some(DecodedFrame(Message(t, Some(uri), Some(data)), serial)))
  }

  /** The two ways the decoder ends in a negative array size once the
      declared frame is present: a negative uri length, or a declared
      length too short for its own uri. */
  lemma NegativeSizes(frame: seq<byte>, signedUriLength: bool)
    requires |frame| >= HEADER_SIZE + FIXED_BODY
    requires 0 <= Int32(frame[..HEADER_SIZE]) <= |frame| - HEADER_SIZE
    ensures UriLength(frame[HEADER_SIZE + FIXED_BODY - 1], signedUriLength) < 0
            ==> DecodeWith(frame, signedUriLength) == Err(NegativeArraySize)
    ensures var n := UriLength(frame[HEADER_SIZE + FIXED_BODY - 1], signedUriLength);
            0 <= n && |frame| >= HEADER_SIZE + FIXED_BODY + n && Int32(frame[..HEADER_SIZE]) < FIXED_BODY + n
            ==> DecodeWith(frame, signedUriLength) == Err(NegativeArraySize)
  {
  }

  /** The decoder as written: the uri length is a signed byte. */
  function Decode(frame: seq<byte>): (r: Result<Option<DecodedFrame>, DecodeError>)
  {
    DecodeWith(frame, true)
  }

  /** The corrected decoder: the uri length is read unsigned. */
  function DecodeFixed(frame: seq<byte>): (r: Result<Option<DecodedFrame>, DecodeError>)
  {
    DecodeWith(frame, false)
  }

  // ---------------------------------------------------------------------
  // The decoder's own layout, and what the encoder produces against it

  /** The bytes the decoder expects for a message and a serial number:
      the encoder's layout with the 8-byte serial after the type. This is
      the corrected encoder. */
  function EncodeWithSerial(m: Message, serial: nat): (out: seq<byte>)
    requires serial < TWO_64
    ensures |out| == HEADER_SIZE + FIXED_BODY + |m.uri.GetOr([])| + |m.data.GetOr([])|
  {
    var uri := m.uri.GetOr([]);
    Int32Bytes(FIXED_BODY + |uri| + |m.data.GetOr([])|) + [m.msgType] + Uint64Bytes(serial)
      + [LowByte(|uri|)] + uri + m.data.GetOr([])
  }

  /** What a message looks like after a trip through the wire: absent
      fields come back present and empty. */
  function Received(m: Message): (r: Message)
    ensures r.msgType == m.msgType
    ensures r.uri == Some(m.uri.GetOr([])) && r.data == Some(m.data.GetOr([]))
  {
    Message(m.msgType, Some(m.uri.GetOr([])), Some(m.data.GetOr([])))
  }

  /** Shared layout facts of `EncodeWithSerial`, for both decoders. */
  lemma {:induction false} SerialLayout(m: Message, serial: nat)
    requires serial < TWO_64
    requires FIXED_BODY + |m.uri.GetOr([])| + |m.data.GetOr([])| < TWO_31
    ensures var out := EncodeWithSerial(m, serial);
      var uri := m.uri.GetOr([]);
      var data := m.data.GetOr([]);
      && Int32(out[..HEADER_SIZE]) == FIXED_BODY + |uri| + |data|
      && out[HEADER_SIZE] == m.msgType
      && Uint64(out[HEADER_SIZE + TYPE_SIZE..HEADER_SIZE + TYPE_SIZE + SERIAL_NUMBER_SIZE]) == serial
      && out[HEADER_SIZE + FIXED_BODY - 1] == LowByte(|uri|)
      && out[HEADER_SIZE + FIXED_BODY..HEADER_SIZE + FIXED_BODY + |uri|] == uri
      && out[HEADER_SIZE + FIXED_BODY + |uri|..] == data
  {
    var uri := m.uri.GetOr([]);
    var data := m.data.GetOr([]);
    var len := Int32Bytes(FIXED_BODY + |uri| + |data|);
    var sn := Uint64Bytes(serial);
    var out := len + [m.msgType] + sn + [LowByte(|uri|)] + uri + data;
    assert out == EncodeWithSerial(m, serial);
    assert out[..HEADER_SIZE] == len;
    assert out[HEADER_SIZE + TYPE_SIZE..HEADER_SIZE + TYPE_SIZE + SERIAL_NUMBER_SIZE] == sn;
    assert out[HEADER_SIZE + FIXED_BODY..HEADER_SIZE + FIXED_BODY + |uri|] == uri;
    assert out[HEADER_SIZE + FIXED_BODY + |uri|..] == data;
  }

  /** Round trip of the corrected pair: every message whose uri fits the
      one-byte length field comes back, with its serial number. */
  lemma {:induction false} RoundTripFixed(m: Message, serial: nat)
    requires serial < TWO_64
    requires |m.uri.GetOr([])| < TWO_8
    requires FIXED_BODY + |m.uri.GetOr([])| + |m.data.GetOr([])| < TWO_31
    ensures DecodeFixed(EncodeWithSerial(m, serial)) == Ok(Some(DecodedFrame(Received(m), serial)))
  {
    RoundTripWith(m, serial, false);
  }

  /** The decoder as written round-trips the same layout, but only for
      uris shorter than 128 bytes. */
  lemma {:induction false} RoundTripSigned(m: Message, serial: nat)
    requires serial < TWO_64
    requires |m.uri.GetOr([])| < 0x80
    requires FIXED_BODY + |m.uri.GetOr([])| + |m.data.GetOr([])| < TWO_31
    ensures Decode(EncodeWithSerial(m, serial)) == Ok(Some(DecodedFrame(Received(m), serial)))
  {
    RoundTripWith(m, serial, true);
  }

  lemma {:induction false} RoundTripWith(m: Message, serial: nat, signedUriLength: bool)
    requires serial < TWO_64
    requires |m.uri.GetOr([])| < (if signedUriLength then 0x80 else TWO_8)
    requires FIXED_BODY + |m.uri.GetOr([])| + |m.data.GetOr([])| < TWO_31
    ensures DecodeWith(EncodeWithSerial(m, serial), signedUriLength) == Ok(Some(DecodedFrame(Received(m), serial)))
  {
    SerialLayout(m, serial);
    var out := EncodeWithSerial(m, serial);
    var uri := m.uri.GetOr([]);
    var data := m.data.GetOr([]);
    assert UriLength(out[HEADER_SIZE + FIXED_BODY - 1], signedUriLength) == |uri|;
    SliceOfSuffix(out, HEADER_SIZE, TYPE_SIZE, TYPE_SIZE + SERIAL_NUMBER_SIZE);
    SliceOfSuffix(out, HEADER_SIZE, FIXED_BODY, FIXED_BODY + |uri|);
    SliceOfSuffix(out, HEADER_SIZE, FIXED_BODY + |uri|, FIXED_BODY + |uri| + |data|);
    assert out[HEADER_SIZE + FIXED_BODY + |uri|..HEADER_SIZE + FIXED_BODY + |uri| + |data|] == data;
  }

  /** The signed read rejects any well-formed frame whose uri is 128 to
      255 bytes long. */
  lemma {:induction false} LongUriRejected(m: Message, serial: nat)
    requires serial < TWO_64
    requires 0x80 <= |m.uri.GetOr([])| < TWO_8
    requires FIXED_BODY + |m.uri.GetOr([])| + |m.data.GetOr([])| < TWO_31
    ensures Decode(EncodeWithSerial(m, serial)) == Err(NegativeArraySize)
  {
    SerialLayout(m, serial);
  }

  /** The encoder as written never produces a frame the decoder gives back:
      the decoder accounts for eight serial bytes the encoder never wrote. */
  lemma {:induction false} EncodeDecodeMismatch(m: Message, serial: nat)
    requires BodyLength(m) < TWO_31
    ensures Decode(Encode(m)) != Ok(Some(DecodedFrame(Received(m), serial)))
  {
  }

  /** A concrete instance: the server's heartbeat reply, six bytes on the
      wire, cannot be decoded at all. */
  lemma HeartbeatReplyUndecodable()
    ensures Encode(Control(HEARTBEAT, None)) == [0, 0, 0, 2, HEARTBEAT, 0]
    ensures Decode(Encode(Control(HEARTBEAT, None))) == Err(IndexOutOfBounds)
  {
  }
}

=== FILE: proxy_channel_manager.dfy ===
/** The proxy server's registry of control channels, as far as the
    server handler's calls into it determine it: client key to control
    channel, public port to control channel, and per control channel the
    user channels waiting for or bound to a tunnel, by user id. The class
    implementing it is not part of this model; these maps are what its
    call sites rely on. */
module ProxyChannelManager {
  import opened Wrappers
  import opened Bytes
  import opened Channels

  datatype Registry = Registry(
    cmds: map<Text, ChanId>,                  // client key -> control channel
    portCmds: map<int, ChanId>,               // public port -> control channel
    users: map<ChanId, map<Text, ChanId>>)    // control channel -> user id -> user channel

  const EmptyRegistry: Registry := Registry(map[], map[], map[])

  /** Each of `ports` mapped to `ch`, the other entries kept. */
  function MapPorts(m: map<int, ChanId>, ports: seq<int>, ch: ChanId): (r: map<int, ChanId>)
    ensures r.Keys == m.Keys + set p | p in ports
    ensures forall p :: p in ports ==> r[p] == ch
    ensures forall p :: p in m && p !in ports ==> r[p] == m[p]
    decreases |ports|
  {
    if |ports| == 0 then m else MapPorts(m[ports[0] := ch], ports[1..], ch)
  }

  /** `addCmdChannel(ports, clientKey, channel)`: the channel becomes the
      control channel of the key and of each port, with no users yet. */
  function AddCmdChannel(reg: Registry, ports: seq<int>, key: Text, ch: ChanId): (r: Registry)
    ensures r.cmds == reg.cmds[key := ch]
    ensures r.portCmds == MapPorts(reg.portCmds, ports, ch)
    ensures r.users == reg.users[ch := map[]]
  {
    Registry(reg.cmds[key := ch], MapPorts(reg.portCmds, ports, ch), reg.users[ch := map[]])
  }

  /** `getCmdChannel(clientKey)`; a null key finds nothing. */
  function GetCmdChannel(reg: Registry, key: Option<Text>): (r: Option<ChanId>)
    ensures r.Some? <==> key.Some? && key.value in reg.cmds
    ensures r.Some? ==> r.value == reg.cmds[key.value]
  {
    if key.Some? && key.value in reg.cmds then Some(reg.cmds[key.value]) else None
  }

  /** The user channels registered under a control channel. */
  function UsersOf(reg: Registry, cmd: ChanId): map<Text, ChanId> {
    if cmd in reg.users then reg.users[cmd] else map[]
  }

  /** `getUserChannel(cmdChannel, userId)`; a null id finds nothing. */
  function GetUserChannel(reg: Registry, cmd: ChanId, userId: Option<Text>): (r: Option<ChanId>)
    ensures r.Some? <==> userId.Some? && userId.value in UsersOf(reg, cmd)
    ensures r.Some? ==> r.value == UsersOf(reg, cmd)[userId.value]
  {
    if userId.Some? && userId.value in UsersOf(reg, cmd) then Some(UsersOf(reg, cmd)[userId.value]) else None
  }

  /** `addUserChannelToCmdChannel`, made by the user-side handler when a
      user connects to a public port (that handler is not modelled). */
  function AddUserChannel(reg: Registry, cmd: ChanId, userId: Text, u: ChanId): (r: Registry)
    ensures r.cmds == reg.cmds && r.portCmds == reg.portCmds
    ensures UsersOf(r, cmd) == UsersOf(reg, cmd)[userId := u]
    ensures forall c :: c != cmd ==> UsersOf(r, c) == UsersOf(reg, c)
  {
    reg.(users := reg.users[cmd := UsersOf(reg, cmd)[userId := u]])
  }

  /** `removeUserChannelFromCmdChannel`: the user channel it removed, if any. */
  function RemoveUserChannel(reg: Registry, cmd: ChanId, userId: Option<Text>): (r: (Registry, Option<ChanId>))
    ensures r.1 == GetUserChannel(reg, cmd, userId)
    ensures r.0.cmds == reg.cmds && r.0.portCmds == reg.portCmds
    ensures r.1.None? ==> r.0 == reg
    ensures r.1.Some? ==> UsersOf(r.0, cmd) == UsersOf(reg, cmd) - {userId.value}
    ensures forall c :: c != cmd ==> UsersOf(r.0, c) == UsersOf(reg, c)
  {
    match GetUserChannel(reg, cmd, userId)
    case None => (reg, None)
    case Some(u) => (reg.(users := reg.users[cmd := UsersOf(reg, cmd) - {userId.value}]), Some(u))
  }

  /** `removeCmdChannel(channel)`: every key and port it serves is
      released, and its user channels are handed back to be closed. A
      channel that is not a control channel changes nothing. */
  function RemoveCmdChannel(reg: Registry, ch: ChanId): (r: (Registry, set<ChanId>))
    ensures forall k :: k in r.0.cmds <==> k in reg.cmds && reg.cmds[k] != ch
    ensures forall k :: k in r.0.cmds ==> r.0.cmds[k] == reg.cmds[k]
    ensures forall p :: p in r.0.portCmds <==> p in reg.portCmds && reg.portCmds[p] != ch
    ensures forall p :: p in r.0.portCmds ==> r.0.portCmds[p] == reg.portCmds[p]
    ensures UsersOf(r.0, ch) == map[]
    ensures forall c :: c != ch ==> UsersOf(r.0, c) == UsersOf(reg, c)
    ensures forall u :: u in r.1 <==> u in UsersOf(reg, ch).Values
  {
    var cmds := map k | k in reg.cmds && reg.cmds[k] != ch :: reg.cmds[k];
    var ports := map p | p in reg.portCmds && reg.portCmds[p] != ch :: reg.portCmds[p];
    (Registry(cmds, ports, reg.users - {ch}), UsersOf(reg, ch).Values)
  }

  // ---------------------------------------------------------------------
  // Properties

  /** Registration and lookup agree: a registered control channel is found
      under its key and serves every listed port, and other keys are
      unaffected. */
  lemma AddThenGet(reg: Registry, ports: seq<int>, key: Text, other: Text, ch: ChanId)
    requires other != key
    ensures GetCmdChannel(AddCmdChannel(reg, ports, key, ch), Some(key)) == Some(ch)
    ensures GetCmdChannel(AddCmdChannel(reg, ports, key, ch), Some(other)) == GetCmdChannel(reg, Some(other))
    ensures forall p :: p in ports ==> AddCmdChannel(reg, ports, key, ch).portCmds[p] == ch
    ensures UsersOf(AddCmdChannel(reg, ports, key, ch), ch) == map[]
  {
  }

  /** Removing a user returns the channel a lookup would have found, and
      afterwards the lookup finds nothing. */
  lemma RemoveUserThenGet(reg: Registry, cmd: ChanId, userId: Text, u: ChanId)
    ensures var reg1 := AddUserChannel(reg, cmd, userId, u);
      && GetUserChannel(reg1, cmd, Some(userId)) == Some(u)
      && RemoveUserChannel(reg1, cmd, Some(userId)).1 == Some(u)
      && GetUserChannel(RemoveUserChannel(reg1, cmd, Some(userId)).0, cmd, Some(userId)).None?
  {
  }

  /** Removing a control channel leaves no key and no port pointing at it,
      so a later lookup by its key finds nothing. */
  lemma RemoveCmdChannelForgets(reg: Registry, ch: ChanId, key: Text)
    requires GetCmdChannel(reg, Some(key)) == Some(ch)
    ensures GetCmdChannel(RemoveCmdChannel(reg, ch).0, Some(key)).None?
    ensures forall p :: p in RemoveCmdChannel(reg, ch).0.portCmds ==> RemoveCmdChannel(reg, ch).0.portCmds[p] != ch
  {
  }
}

=== FILE: proxy_client.dfy ===
/** The proxy client's supervisor of its control channel: connect,
    authenticate, and after a failed connect or a lost control channel wait
    and connect again. The wait doubles from one second, but the check
    against the 60 s cap is made on the value before doubling, so the
    schedule runs up to 64 s and then starts again at 2 s. */
module ProxyClient {
  import opened Wrappers
  import opened Bytes
  import opened ProxyMessage
  import opened Channels
  import opened ClientChannelManager

  /** `sleepTimeMill` at start and after every successful connect. */
  const INITIAL_SLEEP: nat := 1000
  /** A `sleepTimeMill` above this is reset before doubling. */
  const SLEEP_CAP: nat := 60000

  /** `reconnectWait`: the new `sleepTimeMill`, which is also how long it
      waits. */
  function ReconnectWait(sleep: int): (r: int)
    ensures sleep > SLEEP_CAP ==> r == 2 * INITIAL_SLEEP
    ensures sleep <= SLEEP_CAP ==> r == 2 * sleep
  {
    (if sleep > SLEEP_CAP then INITIAL_SLEEP else sleep) * 2
  }

  function Pow2(k: nat): (r: nat)
    ensures r >= 1
  {
    if k == 0 then 1 else 2 * Pow2(k - 1)
  }

  /** The values `sleepTimeMill` can take: 1000 * 2^k with 0 <= k <= 6. */
  predicate IsBackoff(sleep: int) {
    exists k :: 0 <= k <= 6 && sleep == INITIAL_SLEEP * Pow2(k)
  }

  /** The supervisor's state: `sleepTimeMill` and the shared client state,
      whose control channel it sets. */
  datatype Supervisor = Supervisor(sleep: int, st: ClientState)

  /** Outcomes of `connectProxyServer` and the loss of the control channel
      (the listener call made by the client handler's `channelInactive`). */
  datatype Event = Connected(ch: ChanId) | ConnectFailed | ControlLost

  /** One event: on success the channel becomes the control channel, AUTH
      with the client key is sent on it and the backoff is reset; on a
      failure or a loss the supervisor waits and connects again. */
  function OnEvent(sup: Supervisor, ev: Event, clientKey: Option<Text>): (r: (Supervisor, seq<Effect>))
    ensures ev.Connected? ==>
      && r.0.sleep == INITIAL_SLEEP
      && r.0.st == sup.st.(cmd := Some(ev.ch))
      && r.1 == [Send(ev.ch, Control(AUTH, clientKey))]
    ensures !ev.Connected? ==>
      && r.0 == sup.(sleep := ReconnectWait(sup.sleep))
      && r.1 == [Wait(ReconnectWait(sup.sleep)), Reconnect]
  {
    match ev
    case Connected(ch) => (Supervisor(INITIAL_SLEEP, sup.st.(cmd := Some(ch))), [Send(ch, Control(AUTH, clientKey))])
    case _ =>
      var w := ReconnectWait(sup.sleep);
      (sup.(sleep := w), [Wait(w), Reconnect])
  }

  /** Every event keeps `sleepTimeMill` a backoff value, and every wait
      lasts between 2 s and 64 s. */
  lemma OnEventKeepsBackoff(sup: Supervisor, ev: Event, clientKey: Option<Text>)
    requires IsBackoff(sup.sleep)
    ensures IsBackoff(OnEvent(sup, ev, clientKey).0.sleep)
    ensures forall e :: e in OnEvent(sup, ev, clientKey).1 && e.Wait? ==> 2000 <= e.ms <= 64000
  {
    var k :| 0 <= k <= 6 && sup.sleep == INITIAL_SLEEP * Pow2(k);
    assert Pow2(0) == 1 && Pow2(1) == 2 && Pow2(2) == 4 && Pow2(3) == 8;
    assert Pow2(4) == 16 && Pow2(5) == 32 && Pow2(6) == 64;
    if ev.Connected? {
      assert INITIAL_SLEEP == INITIAL_SLEEP * Pow2(0);
    } else if k == 6 {
      assert ReconnectWait(sup.sleep) == INITIAL_SLEEP * Pow2(1);
    } else {
      assert ReconnectWait(sup.sleep) == INITIAL_SLEEP * Pow2(k + 1);
    }
  }

  /** Applying events in turn; the effects are concatenated. */
  function Run(sup: Supervisor, evs: seq<Event>, clientKey: Option<Text>): (r: (Supervisor, seq<Effect>))
    decreases |evs|
  {
    if |evs| == 0 then (sup, [])
    else
      var (s1, e1) := OnEvent(sup, evs[0], clientKey);
      var (s2, e2) := Run(s1, evs[1..], clientKey);
      (s2, e1 + e2)
  }

  /** The invariant holds along any run, and no run ever waits less than
      2 s or more than 64 s. */
  lemma {:induction false} RunKeepsBackoff(sup: Supervisor, evs: seq<Event>, clientKey: Option<Text>)
    requires IsBackoff(sup.sleep)
    ensures IsBackoff(Run(sup, evs, clientKey).0.sleep)
    ensures forall e :: e in Run(sup, evs, clientKey).1 && e.Wait? ==> 2000 <= e.ms <= 64000
    decreases |evs|
  {
    if |evs| > 0 {
      OnEventKeepsBackoff(sup, evs[0], clientKey);
      var (s1, e1) := OnEvent(sup, evs[0], clientKey);
      RunKeepsBackoff(s1, evs[1..], clientKey);
    }
  }

  /** The waits of `n` consecutive failures, starting from `sleep`. */
  function Waits(sleep: int, n: nat): (ws: seq<int>)
    ensures |ws| == n
    decreases n
  {
    if n == 0 then [] else [ReconnectWait(sleep)] + Waits(ReconnectWait(sleep), n - 1)
  }

  /** The waits a run of failures produces are those of `Waits`. */
  lemma {:induction false} FailuresWait(sup: Supervisor, n: nat, clientKey: Option<Text>)
    ensures var r := Run(sup, seq(n, _ => ConnectFailed), clientKey);
      && |r.1| == 2 * n
      && forall i :: 0 <= i < n ==> r.1[2 * i] == Wait(Waits(sup.sleep, n)[i]) && r.1[2 * i + 1] == Reconnect
    decreases n
  {
    if n > 0 {
      var evs := seq(n, _ => ConnectFailed);
      assert evs[1..] == seq(n - 1, _ => ConnectFailed);
      var s1 := sup.(sleep := ReconnectWait(sup.sleep));
      FailuresWait(s1, n - 1, clientKey);
      var r := Run(sup, evs, clientKey);
      var r1 := Run(s1, evs[1..], clientKey);
      assert r.1 == [Wait(ReconnectWait(sup.sleep)), Reconnect] + r1.1;
      forall i | 0 <= i < n
        ensures r.1[2 * i] == Wait(Waits(sup.sleep, n)[i]) && r.1[2 * i + 1] == Reconnect
      {
        if i > 0 {
          assert r.1[2 * i] == r1.1[2 * (i - 1)];
          assert r.1[2 * i + 1] == r1.1[2 * (i - 1) + 1];
        }
      }
    }
  }

  /** Closed form of the schedule from `1000 * 2^k`: the i-th wait is
      `1000 * 2^((k + i) mod 6 + 1)`. */
  lemma {:induction false} WaitsClosedForm(k: nat, n: nat)
    requires k <= 6
    ensures forall i :: 0 <= i < n ==> Waits(INITIAL_SLEEP * Pow2(k), n)[i] == INITIAL_SLEEP * Pow2((k + i) % 6 + 1)
    decreases n
  {
    if n > 0 {
      var k' := k % 6 + 1;
      assert Pow2(0) == 1 && Pow2(1) == 2 && Pow2(2) == 4 && Pow2(3) == 8;
      assert Pow2(4) == 16 && Pow2(5) == 32 && Pow2(6) == 64;
      assert ReconnectWait(INITIAL_SLEEP * Pow2(k)) == INITIAL_SLEEP * Pow2(k');
      WaitsClosedForm(k', n - 1);
      var ws := Waits(INITIAL_SLEEP * Pow2(k), n);
      forall i | 0 <= i < n ensures ws[i] == INITIAL_SLEEP * Pow2((k + i) % 6 + 1) {
        if i > 0 {
          assert ws[i] == Waits(INITIAL_SLEEP * Pow2(k'), n - 1)[i - 1];
          assert (k' + (i - 1)) % 6 == (k + i) % 6;
        }
      }
    }
  }

  /** From a fresh start or a successful connect, consecutive failures wait
      2, 4, 8, 16, 32 and 64 seconds, then 2 seconds again, with period six. */
  lemma BackoffSchedule(n: nat)
    ensures forall i :: 0 <= i < n ==> Waits(INITIAL_SLEEP, n)[i] == INITIAL_SLEEP * Pow2(i % 6 + 1)
    ensures n >= 7 ==> Waits(INITIAL_SLEEP, n)[..7] == [2000, 4000, 8000, 16000, 32000, 64000, 2000]
  {
    assert INITIAL_SLEEP * Pow2(0) == INITIAL_SLEEP;
    WaitsClosedForm(0, n);
    assert Pow2(1) == 2 && Pow2(2) == 4 && Pow2(3) == 8;
    assert Pow2(4) == 16 && Pow2(5) == 32 && Pow2(6) == 64;
  }

  /** A successful connect in the middle of a failure streak restarts the
      schedule at 2 s. */
  lemma ConnectResetsBackoff(sup: Supervisor, ch: ChanId, clientKey: Option<Text>)
    ensures var s1 := OnEvent(sup, Connected(ch), clientKey).0;
      OnEvent(s1, ConnectFailed, clientKey).1 == [Wait(2000), Reconnect]
  {
  }
}

=== FILE: proxy_config.dfy ===
/** The server's port-mapping configuration: the parsed client list is
    validated and turned into two lookup tables, client key to public ports
    and public port to the backend it forwards to. Reading and writing the
    configuration file, JSON parsing and change listeners are not modelled;
    the parsed list is the input. */
module ProxyConfig {
  import opened Wrappers
  import opened Bytes
  import Iteration

  /** One public port and the "host:port" backend behind the client. */
  datatype Mapping = Mapping(inetPort: int, lan: Text)

  /** One client; its mapping list may be missing (null) in the JSON. */
  datatype Client = Client(clientKey: Text, proxyMappings: Option<seq<Mapping>>)

  /** The two tables and the client list they were built from. */
  datatype Config = Config(clientInetPorts: map<Text, seq<int>>, inetPortLan: map<int, Text>, clients: seq<Client>)

  /** Why an update was refused: the two `IllegalArgumentException`s, and
      the `NullPointerException` of iterating a missing mapping list. */
  datatype ConfigError =
    | DuplicateClientKey(key: Text)
    | DuplicateInetPort(port: int)
    | MissingMappings(key: Text)

  /** The configuration before any update has succeeded. */
  const Empty: Config := Config(map[], map[], [])

  // ---------------------------------------------------------------------
  // Reference definitions

  predicate Distinct<T(==)>(s: seq<T>) {
    forall i, j :: 0 <= i < j < |s| ==> s[i] != s[j]
  }

  function PortsOf(ms: seq<Mapping>): (ps: seq<int>)
    ensures |ps| == |ms|
    ensures forall i :: 0 <= i < |ms| ==> ps[i] == ms[i].inetPort
  {
    seq(|ms|, i requires 0 <= i < |ms| => ms[i].inetPort)
  }

  function KeysOf(cs: seq<Client>): (ks: seq<Text>)
    ensures |ks| == |cs|
    ensures forall i :: 0 <= i < |cs| ==> ks[i] == cs[i].clientKey
  {
    seq(|cs|, i requires 0 <= i < |cs| => cs[i].clientKey)
  }

  /** Every public port of every client, in list order. */
  function AllPorts(cs: seq<Client>): seq<int> {
    if |cs| == 0 then [] else PortsOf(cs[0].proxyMappings.GetOr([])) + AllPorts(cs[1..])
  }

  /** A client list the update accepts: every mapping list present, client
      keys pairwise distinct and public ports pairwise distinct across all
      clients. */
  predicate Valid(cs: seq<Client>) {
    && (forall i :: 0 <= i < |cs| ==> cs[i].proxyMappings.Some?)
    && Distinct(KeysOf(cs))
    && Distinct(AllPorts(cs))
  }

  /** The tables are consistent: the lan table's ports are exactly the
      ports listed for clients, and no port is listed for two clients. */
  ghost predicate Consistent(ports: map<Text, seq<int>>, lans: map<int, Text>) {
    && lans.Keys == ListedPorts(ports)
    && (forall k1, k2, p :: k1 in ports && k2 in ports && p in ports[k1] && p in ports[k2] ==> k1 == k2)
  }

  /** Every port some client lists. */
  ghost function ListedPorts(ports: map<Text, seq<int>>): set<int> {
    set k, p | k in ports && p in ports[k] :: p
  }

  // ---------------------------------------------------------------------
  // The construction loop

  /** The inner loop over one client's mappings. */
  function AddMappings(lans: map<int, Text>, ms: seq<Mapping>): (r: Result<map<int, Text>, ConfigError>)
    ensures r.Err? ==> r.error.DuplicateInetPort? && r.error.port in PortsOf(ms)
    // the refused port is taken already or repeated earlier in the list
    ensures r.Err? ==> exists k :: 0 <= k < |ms| && r.error.port == ms[k].inetPort
                                 && (ms[k].inetPort in lans || ms[k].inetPort in PortsOf(ms[..k]))
    decreases |ms|
  {
    if |ms| == 0 then Ok(lans)
    else if ms[0].inetPort in lans then
      var r := Err(DuplicateInetPort(ms[0].inetPort));
      assert ms[0].inetPort == r.error.port;
      r
    else
      var r := AddMappings(lans[ms[0].inetPort := ms[0].lan], ms[1..]);
      assert r.Err? ==> r.error.port in PortsOf(ms) by {
        if r.Err? { assert PortsOf(ms[1..]) == PortsOf(ms)[1..]; }
      }
      assert r.Err? ==> exists k :: 0 <= k < |ms| && r.error.port == ms[k].inetPort
                                   && (ms[k].inetPort in lans || ms[k].inetPort in PortsOf(ms[..k])) by {
        if r.Err? {
          var j :| 0 <= j < |ms[1..]| && r.error.port == ms[1..][j].inetPort
                   && (ms[1..][j].inetPort in lans[ms[0].inetPort := ms[0].lan] || ms[1..][j].inetPort in PortsOf(ms[1..][..j]));
          DuplicateShifts(lans, ms, j);
        }
      }
      r
  }

  /** A port of the tail that is taken in the extended table, or repeated in
      the tail's prefix, is taken or repeated at its place in the whole list. */
  lemma DuplicateShifts(lans: map<int, Text>, ms: seq<Mapping>, j: nat)
    requires 0 < |ms| && j < |ms| - 1
    requires ms[j + 1].inetPort in lans[ms[0].inetPort := ms[0].lan] || ms[j + 1].inetPort in PortsOf(ms[1..][..j])
    ensures ms[j + 1].inetPort in lans || ms[j + 1].inetPort in PortsOf(ms[..j + 1])
  {
  }

  /** The outer loop over clients, from the given partial tables. */
  function Build(ports: map<Text, seq<int>>, lans: map<int, Text>, cs: seq<Client>)
    : (r: Result<(map<Text, seq<int>>, map<int, Text>), ConfigError>)
    ensures r.Ok? ==> ports.Keys <= r.value.0.Keys && lans.Keys <= r.value.1.Keys
    decreases |cs|
  {
    if |cs| == 0 then Ok((ports, lans))
    else
      var c := cs[0];
      if c.clientKey in ports then Err(DuplicateClientKey(c.clientKey))
      else if c.proxyMappings.None? then Err(MissingMappings(c.clientKey))
      else
        var ms := c.proxyMappings.value;
        match AddMappings(lans, ms)
        case Err(e) => Err(e)
        case Ok(lans') =>
          AddMappingsKeys(lans, ms);
          Build(ports[c.clientKey := PortsOf(ms)], lans', cs[1..])
  }

  /** The result of `update`: the configuration in force afterwards and the
      exception, if one was thrown. */
  datatype Updated = Updated(config: Config, error: Option<ConfigError>)

  /** `update` on an already parsed client list (`None` when the JSON text
      parsed to null). The tables are replaced only when the whole list is
      accepted. */
  function Update(cfg: Config, parsed: Option<seq<Client>>): (r: Updated)
    ensures r.error.Some? ==> r.config == cfg
    ensures r.error.None? ==> r.config.clients == parsed.GetOr([])
    ensures parsed.None? ==> r == Updated(Empty, None)
  {
    var clients := parsed.GetOr([]);
    match Build(map[], map[], clients)
    case Ok(tables) => Updated(Config(tables.0, tables.1, clients), None)
    case Err(e) => Updated(cfg, Some(e))
  }

  // ---------------------------------------------------------------------
  // Lookups

  /** `getClientInetPorts`: the key's ports, or null for an unknown key. */
  function ClientInetPorts(cfg: Config, key: Option<Text>): (r: Option<seq<int>>)
    ensures r.Some? <==> key.Some? && key.value in cfg.clientInetPorts
    ensures r.Some? ==> r.value == cfg.clientInetPorts[key.value]
  {
    if key.Some? && key.value in cfg.clientInetPorts then Some(cfg.clientInetPorts[key.value]) else None
  }

  /** `getClientKeySet`: exactly the keys `getClientInetPorts` finds. */
  function ClientKeySet(cfg: Config): (r: set<Text>)
    ensures forall k :: k in r <==> ClientInetPorts(cfg, Some(k)).Some?
  {
    cfg.clientInetPorts.Keys
  }

  /** `getLanInfo`: the backend behind a public port, or null. */
  function LanInfo(cfg: Config, port: int): (r: Option<Text>)
    ensures r.Some? <==> port in cfg.inetPortLan
    ensures r.Some? ==> r.value == cfg.inetPortLan[port]
  {
    if port in cfg.inetPortLan then Some(cfg.inetPortLan[port]) else None
  }

  /** `getUserPorts`: the public ports to listen on, each once, in the
      table's iteration order (left unspecified). */
  method UserPorts(cfg: Config) returns (ports: seq<int>)
    ensures Distinct(ports)
    ensures forall q :: q in ports <==> q in cfg.inetPortLan
  {
    ports := [];
    var left := cfg.inetPortLan.Keys;
    while left != {}
      invariant left <= cfg.inetPortLan.Keys
      invariant Distinct(ports)
      invariant forall q :: q in ports ==> q !in left && q in cfg.inetPortLan
      invariant forall q :: q in cfg.inetPortLan ==> (q in ports <==> q !in left)
      decreases left
    {
      var p := Iteration.Choose(left);
      ports := ports + [p];
      left := left - {p};
    }
  }

  // ---------------------------------------------------------------------
  // Properties of the construction

  lemma {:induction false} AddMappingsKeys(lans: map<int, Text>, ms: seq<Mapping>)
    requires AddMappings(lans, ms).Ok?
    ensures AddMappings(lans, ms).value.Keys == lans.Keys + set p | p in PortsOf(ms)
    ensures forall p :: p in PortsOf(ms) ==> p !in lans
    ensures forall p :: p in lans ==> AddMappings(lans, ms).value[p] == lans[p]
    decreases |ms|
  {
    if |ms| > 0 {
      var lans1 := lans[ms[0].inetPort := ms[0].lan];
      AddMappingsKeys(lans1, ms[1..]);
      assert PortsOf(ms) == [ms[0].inetPort] + PortsOf(ms[1..]);
    }
  }

  /** A sequence is duplicate-free exactly when both halves are and they
      share no element. */
  lemma DistinctAppend<T>(a: seq<T>, b: seq<T>)
    ensures Distinct(a + b) <==> Distinct(a) && Distinct(b) && (forall x :: x in a ==> x !in b)
  {
    var s := a + b;
    if Distinct(s) {
      forall i, j | 0 <= i < j < |a| ensures a[i] != a[j] {
        assert s[i] == a[i] && s[j] == a[j];
      }
      forall i, j | 0 <= i < j < |b| ensures b[i] != b[j] {
        assert s[|a| + i] == b[i] && s[|a| + j] == b[j];
      }
      forall x, j | x in a && 0 <= j < |b| ensures b[j] != x {
        var i :| 0 <= i < |a| && a[i] == x;
        assert s[i] == a[i] && s[|a| + j] == b[j];
      }
    }
    if Distinct(a) && Distinct(b) && (forall x :: x in a ==> x !in b) {
      forall i, j | 0 <= i < j < |s| ensures s[i] != s[j] {
        if j < |a| {
          assert s[i] == a[i] && s[j] == a[j];
        } else if i < |a| {
          assert s[i] == a[i] && s[j] == b[j - |a|];
          assert s[i] in a;
        } else {
          assert s[i] == b[i - |a|] && s[j] == b[j - |a|];
        }
      }
    }
  }

  /** The inner loop succeeds exactly when the client's ports are
      duplicate-free and none is already taken; it then adds each mapping. */
  lemma AddMappingsOk(lans: map<int, Text>, ms: seq<Mapping>)
    ensures AddMappings(lans, ms).Ok? <==>
      Distinct(PortsOf(ms)) && (forall p :: p in PortsOf(ms) ==> p !in lans)
    ensures AddMappings(lans, ms).Ok? ==>
      forall j :: 0 <= j < |ms| ==>
        ms[j].inetPort in AddMappings(lans, ms).value && AddMappings(lans, ms).value[ms[j].inetPort] == ms[j].lan
  {
    AddMappingsAccepts(lans, ms);
    if AddMappings(lans, ms).Ok? {
      AddMappingsValues(lans, ms);
    }
  }

  /** The acceptance half of `AddMappingsOk`. */
  lemma {:induction false} AddMappingsAccepts(lans: map<int, Text>, ms: seq<Mapping>)
    ensures AddMappings(lans, ms).Ok? <==>
      Distinct(PortsOf(ms)) && (forall p :: p in PortsOf(ms) ==> p !in lans)
    decreases |ms|
  {
    if |ms| > 0 {
      var lans1 := lans[ms[0].inetPort := ms[0].lan];
      AddMappingsAccepts(lans1, ms[1..]);
      assert PortsOf(ms) == [ms[0].inetPort] + PortsOf(ms[1..]);
      DistinctAppend([ms[0].inetPort], PortsOf(ms[1..]));
    }
  }

  /** The contents half of `AddMappingsOk`. */
  lemma {:induction false} AddMappingsValues(lans: map<int, Text>, ms: seq<Mapping>)
    requires AddMappings(lans, ms).Ok?
    ensures forall j :: 0 <= j < |ms| ==>
      ms[j].inetPort in AddMappings(lans, ms).value && AddMappings(lans, ms).value[ms[j].inetPort] == ms[j].lan
    decreases |ms|
  {
    if |ms| > 0 {
      var lans1 := lans[ms[0].inetPort := ms[0].lan];
      var r := AddMappings(lans, ms).value;
      assert r == AddMappings(lans1, ms[1..]).value;
      AddMappingsValues(lans1, ms[1..]);
      AddMappingsKeys(lans1, ms[1..]);
      forall j | 0 <= j < |ms| ensures ms[j].inetPort in r && r[ms[j].inetPort] == ms[j].lan {
        if j > 0 {
          assert ms[j] == ms[1..][j - 1];
        } else {
          assert ms[0].inetPort in lans1 && lans1[ms[0].inetPort] == ms[0].lan;
        }
      }
    }
  }

  /** The mappings of a client, a missing list read as empty. */
  function MappingsOf(c: Client): seq<Mapping> {
    c.proxyMappings.GetOr([])
  }

  /** The outer loop succeeds exactly when every mapping list is present,
      the keys are duplicate-free and new, and all ports, across clients,
      are duplicate-free and new. */
  lemma {:induction false} BuildOk(ports: map<Text, seq<int>>, lans: map<int, Text>, cs: seq<Client>)
    ensures Build(ports, lans, cs).Ok? <==>
      && (forall i :: 0 <= i < |cs| ==> cs[i].proxyMappings.Some?)
      && Distinct(KeysOf(cs)) && (forall k :: k in KeysOf(cs) ==> k !in ports)
      && Distinct(AllPorts(cs)) && (forall p :: p in AllPorts(cs) ==> p !in lans)
    decreases |cs|
  {
    if |cs| > 0 {
      var c := cs[0];
      assert KeysOf(cs) == [c.clientKey] + KeysOf(cs[1..]);
      assert AllPorts(cs) == PortsOf(MappingsOf(c)) + AllPorts(cs[1..]);
      DistinctAppend([c.clientKey], KeysOf(cs[1..]));
      DistinctAppend(PortsOf(MappingsOf(c)), AllPorts(cs[1..]));
      if c.clientKey !in ports && c.proxyMappings.Some? {
        var ms := c.proxyMappings.value;
        AddMappingsOk(lans, ms);
        if AddMappings(lans, ms).Ok? {
          AddMappingsKeys(lans, ms);
          BuildOk(ports[c.clientKey := PortsOf(ms)], AddMappings(lans, ms).value, cs[1..]);
          assert forall i :: 1 <= i < |cs| ==> cs[i] == cs[1..][i - 1];
        }
      }
    }
  }

  /** The client table a successful outer loop yields: each client's key
      with its ports in list order, on top of the partial table it started
      from. */
  lemma {:induction false} BuildPorts(ports: map<Text, seq<int>>, lans: map<int, Text>, cs: seq<Client>)
    requires Build(ports, lans, cs).Ok?
    ensures var ports' := Build(ports, lans, cs).value.0;
      && (forall k :: k in ports' <==> k in ports || k in KeysOf(cs))
      && (forall k :: k in ports ==> ports'[k] == ports[k])
      && (forall i :: 0 <= i < |cs| ==>
            cs[i].clientKey in ports' && ports'[cs[i].clientKey] == PortsOf(MappingsOf(cs[i])))
    decreases |cs|
  {
    if |cs| > 0 {
      var c := cs[0];
      var ms := c.proxyMappings.value;
      var lans1 := AddMappings(lans, ms).value;
      var ports1 := ports[c.clientKey := PortsOf(ms)];
      BuildPorts(ports1, lans1, cs[1..]);
      BuildOk(ports1, lans1, cs[1..]);
      assert KeysOf(cs) == [c.clientKey] + KeysOf(cs[1..]);
      assert forall i :: 1 <= i < |cs| ==> cs[i] == cs[1..][i - 1];
    }
  }

  /** The port table a successful outer loop yields: each port with the
      backend of its mapping, on top of the partial table it started from. */
  lemma {:induction false} BuildLans(ports: map<Text, seq<int>>, lans: map<int, Text>, cs: seq<Client>)
    requires Build(ports, lans, cs).Ok?
    ensures var lans' := Build(ports, lans, cs).value.1;
      && (forall p :: p in lans' <==> p in lans || p in AllPorts(cs))
      && (forall p :: p in lans ==> lans'[p] == lans[p])
      && (forall i, j :: 0 <= i < |cs| && 0 <= j < |MappingsOf(cs[i])| ==>
            MappingsOf(cs[i])[j].inetPort in lans' && lans'[MappingsOf(cs[i])[j].inetPort] == MappingsOf(cs[i])[j].lan)
    decreases |cs|
  {
    if |cs| > 0 {
      var c := cs[0];
      var ms := c.proxyMappings.value;
      var lans1 := AddMappings(lans, ms).value;
      var ports1 := ports[c.clientKey := PortsOf(ms)];
      AddMappingsKeys(lans, ms);
      AddMappingsOk(lans, ms);
      BuildLans(ports1, lans1, cs[1..]);
      assert AllPorts(cs) == PortsOf(ms) + AllPorts(cs[1..]);
      assert forall i :: 1 <= i < |cs| ==> cs[i] == cs[1..][i - 1];
    }
  }

  /** A port is in the concatenated port list exactly when some client
      lists it. */
  lemma {:induction false} AllPortsMember(cs: seq<Client>, p: int)
    ensures p in AllPorts(cs) <==> exists i :: 0 <= i < |cs| && p in PortsOf(MappingsOf(cs[i]))
    decreases |cs|
  {
    if |cs| > 0 {
      AllPortsMember(cs[1..], p);
      assert forall i :: 1 <= i < |cs| ==> cs[i] == cs[1..][i - 1];
      if p in AllPorts(cs[1..]) {
        var i :| 0 <= i < |cs[1..]| && p in PortsOf(MappingsOf(cs[1..][i]));
        assert p in PortsOf(MappingsOf(cs[i + 1]));
      }
    }
  }

  /** In a duplicate-free port list no port belongs to two clients. */
  lemma {:induction false} PortsOwnedOnce(cs: seq<Client>, i1: nat, i2: nat, p: int)
    requires Distinct(AllPorts(cs))
    requires i1 < i2 < |cs|
    ensures !(p in PortsOf(MappingsOf(cs[i1])) && p in PortsOf(MappingsOf(cs[i2])))
    decreases i1
  {
    DistinctAppend(PortsOf(MappingsOf(cs[0])), AllPorts(cs[1..]));
    assert cs[i2] == cs[1..][i2 - 1];
    if i1 == 0 {
      if p in PortsOf(MappingsOf(cs[i2])) {
        AllPortsMember(cs[1..], p);
      }
    } else {
      assert cs[i1] == cs[1..][i1 - 1];
      PortsOwnedOnce(cs[1..], i1 - 1, i2 - 1, p);
    }
  }

  /** `update` accepts the parsed list exactly when it is valid; a missing
      list counts as the empty one. */
  lemma UpdateAccepts(cfg: Config, parsed: Option<seq<Client>>)
    ensures Update(cfg, parsed).error.None? <==> Valid(parsed.GetOr([]))
  {
    BuildOk(map[], map[], parsed.GetOr([]));
  }

  /** After an accepted update the getters answer from the new list:
      each client's ports in mapping order, null for an unknown key, each
      port's backend, null for an unmapped port, and the key set is the
      set of client keys. */
  lemma UpdateLookups(cfg: Config, cs: seq<Client>)
    requires Valid(cs)
    ensures var cfg' := Update(cfg, Some(cs)).config;
      && ClientKeySet(cfg') == set k | k in KeysOf(cs)
      && (forall i :: 0 <= i < |cs| ==> ClientInetPorts(cfg', Some(cs[i].clientKey)) == Some(PortsOf(MappingsOf(cs[i]))))
      && (forall k :: k !in KeysOf(cs) ==> ClientInetPorts(cfg', Some(k)) == None)
      && (forall i, j :: 0 <= i < |cs| && 0 <= j < |MappingsOf(cs[i])| ==>
            LanInfo(cfg', MappingsOf(cs[i])[j].inetPort) == Some(MappingsOf(cs[i])[j].lan))
      && (forall p :: p !in AllPorts(cs) ==> LanInfo(cfg', p) == None)
  {
    UpdateKeyLookups(cfg, cs);
    UpdateLanLookups(cfg, cs);
  }

  lemma UpdateKeyLookups(cfg: Config, cs: seq<Client>)
    requires Valid(cs)
    ensures var cfg' := Update(cfg, Some(cs)).config;
      && ClientKeySet(cfg') == set k | k in KeysOf(cs)
      && (forall i :: 0 <= i < |cs| ==> ClientInetPorts(cfg', Some(cs[i].clientKey)) == Some(PortsOf(MappingsOf(cs[i]))))
      && (forall k :: k !in KeysOf(cs) ==> ClientInetPorts(cfg', Some(k)) == None)
  {
    BuildOk(map[], map[], cs);
    BuildPorts(map[], map[], cs);
    var cfg' := Update(cfg, Some(cs)).config;
    assert ClientKeySet(cfg') == cfg'.clientInetPorts.Keys;
  }

  lemma UpdateLanLookups(cfg: Config, cs: seq<Client>)
    requires Valid(cs)
    ensures var cfg' := Update(cfg, Some(cs)).config;
      && (forall i, j :: 0 <= i < |cs| && 0 <= j < |MappingsOf(cs[i])| ==>
            LanInfo(cfg', MappingsOf(cs[i])[j].inetPort) == Some(MappingsOf(cs[i])[j].lan))
      && (forall p :: p !in AllPorts(cs) ==> LanInfo(cfg', p) == None)
  {
    BuildOk(map[], map[], cs);
    BuildLans(map[], map[], cs);
  }

  /** After an accepted update every mapped port belongs to exactly one
      client, and the port table holds exactly the ports clients list. */
  lemma UpdateOwners(cfg: Config, cs: seq<Client>)
    requires Valid(cs)
    ensures var cfg' := Update(cfg, Some(cs)).config;
      && (forall p :: p in cfg'.inetPortLan <==> exists i :: 0 <= i < |cs| && p in PortsOf(MappingsOf(cs[i])))
      && (forall p, i1, i2 ::
            (0 <= i1 < |cs| && 0 <= i2 < |cs| && p in PortsOf(MappingsOf(cs[i1])) && p in PortsOf(MappingsOf(cs[i2])))
            ==> i1 == i2)
      && Consistent(cfg'.clientInetPorts, cfg'.inetPortLan)
  {
    BuildOk(map[], map[], cs);
    BuildPorts(map[], map[], cs);
    BuildLans(map[], map[], cs);
    var cfg' := Update(cfg, Some(cs)).config;
    forall p ensures p in cfg'.inetPortLan <==> exists i :: 0 <= i < |cs| && p in PortsOf(MappingsOf(cs[i])) {
      AllPortsMember(cs, p);
    }
    forall p, i1, i2 | 0 <= i1 < |cs| && 0 <= i2 < |cs| && p in PortsOf(MappingsOf(cs[i1])) && p in PortsOf(MappingsOf(cs[i2]))
      ensures i1 == i2
    {
      if i1 < i2 {
        PortsOwnedOnce(cs, i1, i2, p);
      } else if i2 < i1 {
        PortsOwnedOnce(cs, i2, i1, p);
      }
    }
    TablesConsistent(cs, cfg'.clientInetPorts, cfg'.inetPortLan);
  }

  /** Tables holding exactly each client's ports, and each port of exactly
      one client, are consistent. */
  lemma TablesConsistent(cs: seq<Client>, ports: map<Text, seq<int>>, lans: map<int, Text>)
    requires forall k :: k in ports <==> k in KeysOf(cs)
    requires forall i :: 0 <= i < |cs| ==>
      cs[i].clientKey in ports && ports[cs[i].clientKey] == PortsOf(MappingsOf(cs[i]))
    requires forall p :: p in lans <==> exists i :: 0 <= i < |cs| && p in PortsOf(MappingsOf(cs[i]))
    requires forall p, i1, i2 ::
      (0 <= i1 < |cs| && 0 <= i2 < |cs| && p in PortsOf(MappingsOf(cs[i1])) && p in PortsOf(MappingsOf(cs[i2])))
      ==> i1 == i2
    ensures Consistent(ports, lans)
  {
    forall p | p in ListedPorts(ports) ensures p in lans {
      var k :| k in ports && p in ports[k];
      var i :| 0 <= i < |cs| && KeysOf(cs)[i] == k;
      assert p in PortsOf(MappingsOf(cs[i]));
    }
    forall p | p in lans ensures p in ListedPorts(ports) {
      var i :| 0 <= i < |cs| && p in PortsOf(MappingsOf(cs[i]));
      assert cs[i].clientKey in ports;
    }
    forall k1, k2, p | k1 in ports && k2 in ports && p in ports[k1] && p in ports[k2] ensures k1 == k2 {
      var i1 :| 0 <= i1 < |cs| && KeysOf(cs)[i1] == k1;
      var i2 :| 0 <= i2 < |cs| && KeysOf(cs)[i2] == k2;
      assert p in PortsOf(MappingsOf(cs[i1])) && p in PortsOf(MappingsOf(cs[i2]));
    }
  }
}

=== FILE: proxy_message.dfy ===
/** The frame record exchanged between proxy client and proxy server, and
    its five message types. */
module ProxyMessage {
  import opened Wrappers
  import opened Bytes

  /** Heartbeat, answered in kind by the server. */
  const HEARTBEAT: byte := 0x01
  /** Authentication of a client by its key, sent on the control channel. */
  const AUTH: byte := 0x02
  /** Request to open (server to client) or confirm (client to server) a session. */
  const CONNECT: byte := 0x03
  /** Teardown of one user session. */
  const DISCONNECT: byte := 0x04
  /** Payload of a bound session. */
  const TRANSFER: byte := 0x05

  /** The type codes, as one set. */
  const TypeCodes: set<byte> := {HEARTBEAT, AUTH, CONNECT, DISCONNECT, TRANSFER}

  /** Type codes are five distinct values, so dispatch on them is unambiguous. */
  lemma TypeCodesDistinct()
    ensures |TypeCodes| == 5
    ensures forall t :: t in TypeCodes ==> 0x01 <= t <= 0x05
  {
  }

  /** A frame: its type byte and the two optional fields, absent (Java's
      null) until set. The Java record declares no serial number. */
  datatype Message = Message(msgType: byte, uri: Option<Text>, data: Option<seq<byte>>)

  /** `new ProxyMessage()`: type 0, uri and data absent. */
  function New(): (m: Message)
    ensures m.uri.None? && m.data.None?
  {
    Message(0, None, None)
  }

  function SetType(m: Message, t: byte): (r: Message)
    ensures r.msgType == t
    ensures r.uri == m.uri && r.data == m.data
  {
    m.(msgType := t)
  }

  function SetUri(m: Message, uri: Option<Text>): (r: Message)
    ensures r.uri == uri
    ensures r.msgType == m.msgType && r.data == m.data
  {
    m.(uri := uri)
  }

  function SetData(m: Message, data: Option<seq<byte>>): (r: Message)
    ensures r.data == data
    ensures r.msgType == m.msgType && r.uri == m.uri
  {
    m.(data := data)
  }

  /** Setters on distinct fields commute and a later setter on the same
      field overrides an earlier one: a message is determined by the last
      value stored in each field. */
  lemma SettersIndependent(m: Message, t: byte, u: Option<Text>, d: Option<seq<byte>>, u': Option<Text>)
    ensures SetUri(SetType(m, t), u) == SetType(SetUri(m, u), t)
    ensures SetData(SetUri(m, u), d) == SetUri(SetData(m, d), u)
    ensures SetUri(SetUri(m, u'), u) == SetUri(m, u)
    ensures SetData(SetUri(SetType(New(), t), u), d) == Message(t, u, d)
  {
  }

  /** A control frame as the handlers build it: type and uri set, data absent. */
  function Control(t: byte, uri: Option<Text>): (m: Message)
    ensures m.msgType == t && m.uri == uri && m.data.None?
  {
    SetUri(SetType(New(), t), uri)
  }
}

=== FILE: server_channel_handler.dfy ===
/** The proxy server's handler for frames arriving from proxy clients, on
    control channels and tunnel channels alike, and for their connection
    events. Each handler maps the channel table and the registry to new
    ones plus the effects it performs, in order. */
module ServerChannelHandler {
  import opened Wrappers
  import opened Bytes
  import opened ProxyMessage
  import opened Channels
  import opened ProxyChannelManager
  import ProxyConfig

  datatype ServerState = ServerState(chans: Table, reg: Registry)

  datatype Out = Out(st: ServerState, effects: seq<Effect>)

  /** The tunnel attributes move together: a channel carries a client key
      exactly when it carries a user id, and then it is bound. */
  ghost predicate Tagged(t: Table) {
    forall c :: (At(t, c).clientKey.Some? <==> At(t, c).userId.Some?)
           && (At(t, c).clientKey.Some? ==> At(t, c).next.Some?)
  }

  // ---------------------------------------------------------------------
  // Handlers

  /** `handleHeartbeatMessage`: answer with a bare HEARTBEAT frame. */
  function Heartbeat(st: ServerState, c: ChanId): (o: Out)
    ensures o.st == st
    ensures o.effects == [Send(c, Control(HEARTBEAT, None))]
  {
    Out(st, [Send(c, New().(msgType := HEARTBEAT))])
  }

  /** `handleAuthMessage`: a key without configured ports, or one that
      already has a control channel, gets the connection closed; otherwise
      the channel becomes the key's control channel for its ports. */
  function Auth(st: ServerState, cfg: ProxyConfig.Config, c: ChanId, msg: Message): (o: Out)
    ensures ProxyConfig.ClientInetPorts(cfg, msg.uri).None? ==> o == Out(st, [Close(c)])
    ensures (ProxyConfig.ClientInetPorts(cfg, msg.uri).Some? && GetCmdChannel(st.reg, msg.uri).Some?) ==>
      o == Out(st, [Close(c)])
    ensures (ProxyConfig.ClientInetPorts(cfg, msg.uri).Some? && GetCmdChannel(st.reg, msg.uri).None?) ==>
      && o.effects == []
      && o.st.chans == st.chans
      && GetCmdChannel(o.st.reg, msg.uri) == Some(c)
      && (forall p :: p in cfg.clientInetPorts[msg.uri.value] ==> p in o.st.reg.portCmds && o.st.reg.portCmds[p] == c)
      && o.st.reg == AddCmdChannel(st.reg, cfg.clientInetPorts[msg.uri.value], msg.uri.value, c)
  {
    match ProxyConfig.ClientInetPorts(cfg, msg.uri)
    case None => Out(st, [Close(c)])
    case Some(ports) =>
      if GetCmdChannel(st.reg, msg.uri).Some? then Out(st, [Close(c)])
      else Out(st.(reg := AddCmdChannel(st.reg, ports, msg.uri.value, c)), [])
  }

  /** `handleConnectMessage` on a tunnel: the uri "userId@clientKey" names
      a pending user of a registered client; tunnel and user are bound both
      ways and the user may read again. A missing or malformed uri, or an
      unknown key, closes the tunnel; an unknown user changes nothing. */
  function Connect(st: ServerState, c: ChanId, msg: Message): (o: Out)
    ensures msg.uri.None? ==> o == Out(st, [Close(c)])
    ensures msg.uri.Some? && |JavaSplit(msg.uri.value, AT)| != 2 ==> o == Out(st, [Close(c)])
    ensures msg.uri.Some? && |JavaSplit(msg.uri.value, AT)| == 2 ==>
      var tokens := JavaSplit(msg.uri.value, AT);
      var cmd := GetCmdChannel(st.reg, Some(tokens[1]));
      && (cmd.None? ==> o == Out(st, [Close(c)]))
      && (cmd.Some? && GetUserChannel(st.reg, cmd.value, Some(tokens[0])).None? ==> o == Out(st, []))
      && (cmd.Some? && GetUserChannel(st.reg, cmd.value, Some(tokens[0])).Some? ==>
            var u := GetUserChannel(st.reg, cmd.value, Some(tokens[0])).value;
            && o.effects == [] && o.st.reg == st.reg
            && At(o.st.chans, u).next == Some(c) && At(o.st.chans, u).autoRead
            && (u != c ==>
                  At(o.st.chans, c) == At(st.chans, c).(userId := Some(tokens[0]), clientKey := Some(tokens[1]), next := Some(u)))
            && (forall d :: d != c && d != u ==> At(o.st.chans, d) == At(st.chans, d)))
  {
    match msg.uri
    case None => Out(st, [Close(c)])
    case Some(uri) =>
      var tokens := JavaSplit(uri, AT);
      if |tokens| != 2 then Out(st, [Close(c)])
      else match GetCmdChannel(st.reg, Some(tokens[1]))
        case None => Out(st, [Close(c)])
        case Some(cmd) =>
          match GetUserChannel(st.reg, cmd, Some(tokens[0]))
          case None => Out(st, [])
          case Some(u) =>
            var t1 := Put(st.chans, c, At(st.chans, c).(userId := Some(tokens[0]), clientKey := Some(tokens[1]), next := Some(u)));
            var t2 := SetAutoRead(SetNext(t1, u, Some(c)), u, true);
            Out(st.(chans := t2), [])
  }

  /** The tunnel attributes `handleDisconnectMessage` removes. */
  function Untag(t: Table, c: ChanId): (r: Table)
    ensures At(r, c) == At(t, c).(next := None, clientKey := None, userId := None)
    ensures forall d :: d != c ==> At(r, d) == At(t, d)
  {
    Put(t, c, At(t, c).(next := None, clientKey := None, userId := None))
  }

  /** `handleDisconnectMessage`: on a control channel (no client key) the
      frame names the user by its uri; on a tunnel the user is the one the
      tunnel is bound to. The user is deregistered and flushed and closed,
      and a tunnel loses its three attributes. */
  function Disconnect(st: ServerState, c: ChanId, msg: Message): (o: Out)
    ensures At(st.chans, c).clientKey.None? ==>
      var (reg', u) := RemoveUserChannel(st.reg, c, msg.uri);
      && o.st == st.(reg := reg')
      && o.effects == (if u.Some? then [FlushClose(u.value)] else [])
    ensures At(st.chans, c).clientKey.Some? ==>
      var cmd := GetCmdChannel(st.reg, At(st.chans, c).clientKey);
      && (cmd.None? ==> o == Out(st, []))
      && (cmd.Some? ==>
            var (reg', u) := RemoveUserChannel(st.reg, cmd.value, At(st.chans, c).userId);
            && o.st.reg == reg'
            && (u.None? ==> o == Out(st, []))
            && (u.Some? ==> o.effects == [FlushClose(u.value)] && o.st.chans == Untag(st.chans, c)))
  {
    match At(st.chans, c).clientKey
    case None =>
      var (reg', u) := RemoveUserChannel(st.reg, c, msg.uri);
      Out(st.(reg := reg'), if u.Some? then [FlushClose(u.value)] else [])
    case Some(key) =>
      match GetCmdChannel(st.reg, Some(key))
      case None => Out(st, [])
      case Some(cmd) =>
        var (reg', u) := RemoveUserChannel(st.reg, cmd, At(st.chans, c).userId);
        match u
        case None => Out(st.(reg := reg'), [])
        case Some(uc) => Out(ServerState(Untag(st.chans, c), reg'), [FlushClose(uc)])
  }

  /** `handleTransferMessage`: forward the payload to the bound user. */
  function Transfer(st: ServerState, c: ChanId, msg: Message): (o: Out)
    ensures o.st == st
    ensures At(st.chans, c).next.None? ==> o.effects == []
    ensures At(st.chans, c).next.Some? ==>
      o.effects == [if msg.data.Some? then Write(At(st.chans, c).next.value, msg.data.value) else Raise(NullPointer)]
  {
    match At(st.chans, c).next
    case None => Out(st, [])
    case Some(u) =>
      if msg.data.None? then Out(st, [Raise(NullPointer)])  // getData().length
      else Out(st, [Write(u, msg.data.value)])
  }

  /** `channelWritabilityChanged`. */
  function WritabilityChanged(st: ServerState, c: ChanId): (o: Out)
    ensures o.effects == [] && o.st.reg == st.reg
    ensures At(st.chans, c).next.None? ==> o.st == st
    ensures At(st.chans, c).next.Some? ==>
      var p := At(st.chans, c).next.value;
      && At(o.st.chans, p).autoRead == At(st.chans, c).writable
      && At(o.st.chans, p).next == At(st.chans, p).next
      && forall d :: d != p ==> At(o.st.chans, d) == At(st.chans, d)
  {
    Out(st.(chans := RelayWritability(st.chans, c)), [])
  }

  /** `channelInactive`: a tunnel bound to an active user deregisters the
      user from its client and flushes and closes it; any other channel is
      released as a control channel, closing its users. */
  function Inactive(st: ServerState, c: ChanId): (o: Out)
    ensures o.st.chans == st.chans
    ensures (At(st.chans, c).next.Some? && At(st.chans, At(st.chans, c).next.value).active) ==>
      var u := At(st.chans, c).next.value;
      var cmd := GetCmdChannel(st.reg, At(st.chans, c).clientKey);
      && o.effects == [FlushClose(u), Close(u)]
      && o.st.reg == (if cmd.Some? then RemoveUserChannel(st.reg, cmd.value, At(st.chans, c).userId).0 else st.reg)
    ensures !(At(st.chans, c).next.Some? && At(st.chans, At(st.chans, c).next.value).active) ==>
      && o.st.reg == RemoveCmdChannel(st.reg, c).0
      && o.effects == [CloseEach(RemoveCmdChannel(st.reg, c).1)]
  {
    match At(st.chans, c).next
    case Some(u) =>
      if At(st.chans, u).active then
        var reg' := match GetCmdChannel(st.reg, At(st.chans, c).clientKey)
          case Some(cmd) => RemoveUserChannel(st.reg, cmd, At(st.chans, c).userId).0
          case None => st.reg;
        Out(st.(reg := reg'), [FlushClose(u), Close(u)])
      else
        var (reg', users) := RemoveCmdChannel(st.reg, c);
        Out(st.(reg := reg'), [CloseEach(users)])
    case None =>
      var (reg', users) := RemoveCmdChannel(st.reg, c);
      Out(st.(reg := reg'), [CloseEach(users)])
  }

  /** `channelRead0`: dispatch on the frame type; other types are ignored. */
  function ChannelRead(st: ServerState, cfg: ProxyConfig.Config, c: ChanId, msg: Message): (o: Out)
    ensures msg.msgType !in TypeCodes ==> o == Out(st, [])
  {
    if msg.msgType == HEARTBEAT then Heartbeat(st, c)
    else if msg.msgType == AUTH then Auth(st, cfg, c, msg)
    else if msg.msgType == CONNECT then Connect(st, c, msg)
    else if msg.msgType == DISCONNECT then Disconnect(st, c, msg)
    else if msg.msgType == TRANSFER then Transfer(st, c, msg)
    else Out(st, [])
  }

  // ---------------------------------------------------------------------
  // Properties

  /** At most one control channel per key: once a channel is registered, a
      second AUTH for the same key is closed and the registration stays. */
  lemma SecondAuthRejected(st: ServerState, cfg: ProxyConfig.Config, c1: ChanId, c2: ChanId, key: Text)
    requires ProxyConfig.ClientInetPorts(cfg, Some(key)).Some?
    requires GetCmdChannel(st.reg, Some(key)).None?
    ensures var o1 := Auth(st, cfg, c1, Control(AUTH, Some(key)));
      var o2 := Auth(o1.st, cfg, c2, Control(AUTH, Some(key)));
      && o2.effects == [Close(c2)]
      && o2.st == o1.st
      && GetCmdChannel(o2.st.reg, Some(key)) == Some(c1)
  {
  }

  /** Every frame and event keeps the tunnel attributes together. */
  lemma ChannelReadKeepsTagged(st: ServerState, cfg: ProxyConfig.Config, c: ChanId, msg: Message)
    requires Tagged(st.chans)
    ensures Tagged(ChannelRead(st, cfg, c, msg).st.chans)
    ensures Tagged(WritabilityChanged(st, c).st.chans)
    ensures Tagged(Inactive(st, c).st.chans)
  {
    var t := st.chans;
    var t' := ChannelRead(st, cfg, c, msg).st.chans;
    if msg.msgType == CONNECT && t' != t {
      var uri := msg.uri.value;
      var tokens := JavaSplit(uri, AT);
      var cmd := GetCmdChannel(st.reg, Some(tokens[1])).value;
      var u := GetUserChannel(st.reg, cmd, Some(tokens[0])).value;
      forall d ensures (At(t', d).clientKey.Some? <==> At(t', d).userId.Some?)
                    && (At(t', d).clientKey.Some? ==> At(t', d).next.Some?) {
        if d != c && d != u {
          assert At(t', d) == At(t, d);
        }
      }
    } else if msg.msgType == DISCONNECT {
      forall d ensures (At(t', d).clientKey.Some? <==> At(t', d).userId.Some?)
                    && (At(t', d).clientKey.Some? ==> At(t', d).next.Some?) {
        if d != c {
          assert At(t', d) == At(t, d);
        }
      }
    }
    var tw := WritabilityChanged(st, c).st.chans;
    forall d ensures (At(tw, d).clientKey.Some? <==> At(tw, d).userId.Some?)
                  && (At(tw, d).clientKey.Some? ==> At(tw, d).next.Some?) {
      assert At(tw, d).clientKey == At(t, d).clientKey && At(tw, d).userId == At(t, d).userId;
      assert At(tw, d).next == At(t, d).next;
    }
  }

  /** Losing a control channel releases it: its key no longer finds it,
      no public port is served by it any more, and exactly its registered
      user channels are closed. */
  lemma {:induction false} InactiveReleasesControl(st: ServerState, c: ChanId, key: Text)
    requires GetCmdChannel(st.reg, Some(key)) == Some(c)
    requires At(st.chans, c).next.None?
    ensures var o := Inactive(st, c);
      && GetCmdChannel(o.st.reg, Some(key)).None?
      && (forall p :: p in o.st.reg.portCmds ==> o.st.reg.portCmds[p] != c)
      && UsersOf(o.st.reg, c) == map[]
      && |o.effects| == 1 && o.effects[0].CloseEach?
      && (forall u :: u in o.effects[0].chans <==> u in UsersOf(st.reg, c).Values)
  {
    RemoveCmdChannelForgets(st.reg, c, key);
  }

  /** A DISCONNECT on a bound tunnel whose user is still registered tears
      the session down on the server: the user is deregistered, flushed and
      closed, and the tunnel is left without attributes. */
  lemma DisconnectTearsDown(st: ServerState, t: ChanId, cmd: ChanId, key: Text, userId: Text, u: ChanId, msg: Message)
    requires At(st.chans, t).clientKey == Some(key) && At(st.chans, t).userId == Some(userId)
    requires GetCmdChannel(st.reg, Some(key)) == Some(cmd)
    requires GetUserChannel(st.reg, cmd, Some(userId)) == Some(u)
    ensures var o := Disconnect(st, t, msg);
      && o.effects == [FlushClose(u)]
      && GetUserChannel(o.st.reg, cmd, Some(userId)).None?
      && At(o.st.chans, t).next.None? && At(o.st.chans, t).clientKey.None? && At(o.st.chans, t).userId.None?
  {
  }
}

=== FILE: session.dfy ===
/** The session handshake across both sides: the CONNECT a client sends on
    a freshly bound tunnel carries "userId@clientKey", and the server's
    CONNECT handler splits it back and binds the tunnel to the user that
    is waiting under that id. */
module Session {
  import opened Wrappers
  import opened Bytes
  import opened ProxyMessage
  import opened Channels
  import C = ClientChannelHandler
  import CM = ClientChannelManager
  import S = ServerChannelHandler
  import R = ProxyChannelManager
  import JavaCodec

  /** The client's confirmation, read by the server, binds the server-side
      tunnel to the pending user, provided neither the user id nor the key
      contains '@' and the key is not empty. */
  lemma {:induction false} HandshakeBinds(sst: S.ServerState, t: ChanId, userId: Text, key: Text, cmd: ChanId, u: ChanId)
    requires AT !in userId && AT !in key && key != []
    requires R.GetCmdChannel(sst.reg, Some(key)) == Some(cmd)
    requires R.GetUserChannel(sst.reg, cmd, Some(userId)) == Some(u)
    requires t != u
    ensures var o := S.Connect(sst, t, Control(CONNECT, Some(C.ConnectUri(Some(userId), Some(key)))));
      && o.effects == []
      && At(o.st.chans, t).next == Some(u) && At(o.st.chans, u).next == Some(t)
      && At(o.st.chans, t).userId == Some(userId) && At(o.st.chans, t).clientKey == Some(key)
      && At(o.st.chans, u).autoRead
  {
    SplitComposite(userId, key, AT);
  }

  /** End to end on the client side: a CONNECT for a well-formed target,
      with the backend dialled and a tunnel available, emits exactly the
      confirmation `HandshakeBinds` consumes. */
  lemma {:induction false} ClientConfirms(cst: CM.ClientState, cmdCh: ChanId, userId: Text, host: Text, port: nat,
                                          key: Text, b: ChanId, tunnelDial: Option<ChanId>)
    requires COLON !in host && port <= C.MAX_PORT
    requires b !in cst.pool && (tunnelDial.Some? ==> tunnelDial.value != b)
    requires |cst.pool| > 0 || tunnelDial.Some?
    ensures var o := C.Connect(cst, cmdCh, Message(CONNECT, Some(userId), Some(host + [COLON] + ShowNat(port))),
                               Some(key), Some(b), tunnelDial);
      var t := if |cst.pool| > 0 then cst.pool[0] else tunnelDial.value;
      && o.effects == [Dial(host, port), Send(t, Control(CONNECT, Some(C.ConnectUri(Some(userId), Some(key)))))]
      && At(o.st.chans, t).next == Some(b) && At(o.st.chans, b).next == Some(t)
      && CM.GetBackend(o.st, userId) == Some(b)
  {
    C.ConnectDialsTarget(host, port);
  }

  /** A user id containing '@' splits into more than two tokens (an empty
      middle token is kept) and the server closes the tunnel instead of
      binding; so does an empty key,
      whose trailing empty token `split` drops. */
  lemma {:induction false} MalformedConfirmationCloses(sst: S.ServerState, t: ChanId, a: Text, b: Text, userId: Text, key: Text)
    requires AT !in a && AT !in b && AT !in key && key != [] && AT !in userId
    ensures S.Connect(sst, t, Control(CONNECT, Some(C.ConnectUri(Some(a + [AT] + b), Some(key))))).effects == [Close(t)]
    ensures S.Connect(sst, t, Control(CONNECT, Some(C.ConnectUri(Some(userId), Some([]))))).effects == [Close(t)]
  {
    SplitThree(a, b, key, AT);
    assert C.ConnectUri(Some(a + [AT] + b), Some(key)) == a + [AT] + b + [AT] + key;
    SplitTrailingDelimiter(userId, AT);
    assert C.ConnectUri(Some(userId), Some([])) == userId + [AT];
  }

  /** The confirmation survives the wire when the encoder writes the serial
      number the decoder reads (the corrected codec): the server receives
      the same type and uri. */
  lemma {:induction false} ConfirmationSurvivesCorrectedCodec(userId: Text, key: Text, serial: nat)
    requires serial < TWO_64
    requires |userId| + 1 + |key| < TWO_8
    ensures var m := Control(CONNECT, Some(C.ConnectUri(Some(userId), Some(key))));
      var r := JavaCodec.DecodeFixed(JavaCodec.EncodeWithSerial(m, serial));
      && r.Ok? && r.value.Some?
      && r.value.value.msg.msgType == CONNECT
      && r.value.value.msg.uri == m.uri
  {
    var m := Control(CONNECT, Some(C.ConnectUri(Some(userId), Some(key))));
    JavaCodec.RoundTripFixed(m, serial);
  }
}

=== FILE: wrappers.dfy ===
/** Optional values and fallible results, used wherever the Java or Go
    source has a null, an error return or an exception. */
module Wrappers {

  /** A value that may be absent: Java's null, Go's nil. */
  datatype Option<+T> = None | Some(value: T) {

    /** The contained value, or `default` when absent. */
    function GetOr(default: T): T {
      match this
      case Some(v) => v
      case None => default
    }
  }

  /** Either a value or the reason it could not be produced. */
  datatype Result<+R, +E> = Ok(value: R) | Err(error: E)
}

/** Visiting the entries of a hash table, whose iteration order the source
    leaves unspecified. */
module Iteration {

  /** Some element of a non-empty set. */
  method Choose<T>(s: set<T>) returns (x: T)
    requires s != {}
    ensures x in s
  {
    x :| x in s;
  }
}
